=== FILE: README.md ===
# A verified model of a small neural-network training engine

The engine trains fully connected feed-forward networks by gradient descent
on a table of samples. It has five parts, each a module here:

- **Arena** (`arena.dfy`): the region bump allocator. It is a fixed buffer of
  machine words and a cursor. A request is rounded up to whole words and
  carved at the cursor, or refused when it does not fit. `reset`, `save` and
  `rewind` move only the cursor. A null region falls back to the heap.
- **Matrices** (`matrices.dfy`): dense matrices and row views. It covers
  `matrix_multi`, `matrix_sum`, `matrix_activation`, `matrix_fill`,
  `matrix_copy`, `matrix_row`, `row_as_matrix`, `row_slice`,
  `mat_shuffle_rows` and the mini-batch row view. Each operation carries the
  shape preconditions the engine asserts.
- **Activations** (`activations.dfy`): the activation selector, leaky ReLU,
  and the derivative table, which is indexed by the activation's output.
- **Networks**, **Backprop**, **FiniteDiff** (`networks.dfy`, `backprop.dfy`,
  `finitediff.dfy`): the network.
  - Allocation shapes follow the architecture vector.
  - `nn_zero` is modelled, and so is the layer-by-layer forward pass.
  - The mean squared-error cost has both a combined-table and a split-table
    form.
  - `nn_learn` takes one gradient step.
  - `nn_backprop` is modelled for its bookkeeping only (see below).
  - `nn_finite_diff`'s probe-and-restore loop is modelled.
- **Batches** (`batches.dfy`): the `batch_process` state machine. It slices
  the table into contiguous mini-batches, trains on each, and reports the
  mean cost once per epoch.

`as_written.dfy` (module **AsWritten**) holds the discrepancies listed under
Findings.

**Conventions.**
- `float` is modelled as `real`.
- A network with architecture `arch` has n = |arch| − 1 weight layers
  W_0..W_{n−1} and n bias rows. It has n + 1 activation rows a_0..a_n: a_0
  is the input buffer and a_n the output buffer. This follows
  lib/neuralnet.h:393-399. The C engine stores |arch| in `arch_count` and
  then indexes some arrays as if it held n (see Findings).
- The activation function is a parameter `act: real -> real`. The
  derivative used by backprop is a parameter `df: real -> real` in terms of
  the output. `Activations.ActivationDf` is the engine's table of it.
- Storage that allocation leaves uninitialised is represented by an
  arbitrary value `junk`.
- The random row choice of `mat_shuffle_rows` is a sequence of draws given
  as an argument.
- Operations that mutate a buffer in place are modelled as functions that
  return the new value.

**Where the sources disagree.**
- The ReLU derivative is 1 for `y >= 0` in lib/neuralnet.c,
  lib/neuralnet.cpp and lib/src/nn.cpp. It is 1 only for `y > 0` in the
  header's `actdf`. The model follows the engine sources;
  `Activations.ActDfHeader` models the header's variant, and a lemma shows
  the two differ only at ReLU with output 0.
- The header's split-table `nn_cost(nn, ti, to)` and the engines'
  combined-table `nn_cost(nn, t)` are both modelled. A lemma shows they
  agree.
- The backprop scale factor is 2 in both engines. The header's backprop
  uses an undefined `s` and does not compile, so the model follows the
  engines.

## Model

| member | source | states |
|---|---|---|
| Arena.WordsFor | lib/nn_region.cpp:24-25 | a request of b bytes occupies w words with w·8 ≥ b > w·8 − 8 |
| Arena.WordsForIsLeast | lib/neuralnet.c:333-334 | no smaller word count holds the request: rounding up is exact |
| Arena.RegionAllocAlloc | lib/nn_region.cpp:8-20 | a new region is empty and its capacity in words is the byte capacity rounded up to whole words |
| Arena.Alloc | lib/neuralnet.c:333-340 | returns NULL exactly when cursor + words > capacity, and then the region is unchanged; otherwise the block starts at the old cursor, holds the request, ends within capacity, and the cursor advances by its word count |
| Arena.RegionAlloc | lib/nn_region.cpp:22-32 | a null region yields a heap block and no region; a non-null one behaves as Alloc and stays valid |
| Arena.AllocContiguous | lib/neuralnet.c:338-339 | two successive blocks are adjacent and do not overlap |
| Arena.Reset | lib/neuralnet.h:89 | the cursor returns to 0 and the capacity is kept |
| Arena.Save | lib/neuralnet.h:92 | the checkpoint of a valid region lies within its capacity |
| Arena.Rewind | lib/neuralnet.h:93 | the cursor becomes the checkpoint, which leaves the region valid when the checkpoint is within capacity |
| Arena.OccupiedBytes | lib/neuralnet.h:90-91 | the occupied byte count is a whole number of words, namely the cursor |
| Arena.AllocAllGrows | lib/neuralnet.c:336-339 | any series of allocations keeps the region valid, keeps its capacity, and never moves the cursor back |
| Arena.RewindToSave | lib/neuralnet.h:92-93 | rewinding to a saved checkpoint undoes every allocation made since, and the next allocation starts at the checkpoint |
| Arena.ResetThenAlloc | lib/neuralnet.h:89 | after a reset, an allocation that fits the buffer starts at word 0 |
| Arena.ResetWrapper | lib/src/nn_region.cpp:18-23 | null region: no-op; otherwise the same as Reset |
| Arena.SaveWrapper | lib/src/nn_region.cpp:25-30 | null region: nothing; otherwise the region's checkpoint |
| Arena.RewindWrapper | lib/src/nn_region.cpp:32-37 | null region: no-op; otherwise Rewind with the same checkpoint |
| Arena.WrapperRewindToSave | lib/src/nn_region.cpp:25-37 | save then rewind through the wrappers restores a non-null region exactly |
| Matrices.DotZeroRight | lib/neuralnet.c:57-71 | a dot product with a zero vector vanishes |
| Matrices.DotProduct | lib/src/nn_matrix.cpp:27-30 | the inner accumulator loop computes Σ_k u[k]·v[k] |
| Matrices.MatrixMulti | lib/neuralnet.c:57-71 | requires a.cols = b.rows, dst.rows = a.rows and dst.cols = b.cols; every result cell is row i of a dotted with column j of b |
| Matrices.MatrixSum | lib/neuralnet.c:73-82 | requires equal shapes; each cell becomes dst + a and the shape is kept |
| Matrices.MatrixActivation | lib/src/nn_matrix.cpp:46-52 | each cell becomes act(cell) and the shape is kept |
| Matrices.MatrixFill | lib/neuralnet.c:104-110 | every cell equals num and the shape is kept |
| Matrices.MatrixCopy | lib/neuralnet.c:135-144 | requires equal shapes; afterwards dst equals src |
| Matrices.SwapKeepsMultiset | lib/neuralnet.c:346-352 | swapping two rows keeps the multiset of rows |
| Matrices.MatShuffleRows | lib/neuralnet.c:343-354 | the output is a permutation of the input rows with the same shape; when every draw selects j = i, nothing moves |
| Matrices.MatrixRow | lib/neuralnet.c:128-133 | the row view has m.cols cells, which are row r of m |
| Matrices.RowAsMatrix | lib/neuralnet.c:389-395 | a 1 × cols matrix whose only row is the given row |
| Matrices.MatrixRowView | lib/neuralnet.h:368-375 | the header's form: a 1 × m.cols matrix holding row r |
| Matrices.RowViewsRoundTrip | lib/src/nn_matrix.cpp:121-127 | row → matrix → row is the identity, and the header's matrix row is the engine's row viewed as a matrix |
| Matrices.RowSlice | lib/neuralnet.c:397-404 | requires i < row.cols and i + cols ≤ row.cols; yields exactly cells [i, i + cols) |
| Matrices.SliceSplit | lib/neuralnet.c:397-404 | an input slice followed by a target slice reassembles the row |
| Matrices.SubRows | lib/neuralnet.c:371-375 | the corrected mini-batch view (the view as written has stride 0, see Findings): it holds rows [begin, begin + size) of the table, in order, with the table's width |
| Activations.ReluF | lib/neuralnet.c:5 | leaky ReLU returns x or x·NN_RELU_PARAM, and never less than either, so it is the larger of the two |
| Activations.ActivationF | lib/neuralnet.c:13-26 | dispatch on the activation: the ReLU output is the larger of x and x·NN_RELU_PARAM and has the sign of x; sigmoid, tanh and sin apply the given function |
| Activations.ActivationDf | lib/neuralnet.c:29-42 | the derivative read from the output y: for ReLU it is positive, 1 exactly when y ≥ 0 and NN_RELU_PARAM below; for a sigmoid output in (0, 1) it lies in (0, 1/4]; for a tanh output in (−1, 1) it lies in (0, 1]; for sin it is cos(asin y) |
| Activations.ActDfHeader | lib/neuralnet.h:277-291 | the header's table: for ReLU it is positive, 1 exactly when y > 0 and NN_RELU_PARAM at y ≤ 0; every other activation agrees with the engines' table |
| Activations.ReluKeepsSign | lib/neuralnet.c:5 | leaky ReLU is positive exactly for positive input and zero exactly at zero |
| Activations.ReluStrictlyIncreasing | lib/include/nn.h:34 | leaky ReLU is strictly increasing |
| Activations.DerivativeTablesDisagreeOnlyAtReluZero | lib/neuralnet.h:277-291 | the header's `actdf` and the engines' `activationdf` differ exactly at ReLU with output 0 |
| Activations.ReluDerivativeIsSlope | lib/neuralnet.c:33-34 | away from 0, the ReLU derivative read from the output is the actual slope of ReLU |
| Activations.SigmoidDerivativeBounds | lib/src/nn.cpp:30-31 | for a sigmoid output in (0, 1) the derivative y(1 − y) lies in (0, 1/4] |
| Activations.TanhDerivativeBounds | lib/src/nn.cpp:34-35 | for a tanh output in (−1, 1) the derivative 1 − y² lies in (0, 1] |
| Networks.NnAlloc | lib/neuralnet.h:388-411 | n weight matrices of shape arch[i] × arch[i+1], n bias rows of width arch[i+1], and n + 1 activation rows of width arch[i] |
| Networks.NnZero | lib/neuralnet.cpp:63-70 | the corrected `nn_zero` (these lines overrun, see Findings): every weight, bias and activation cell is 0 and the architecture is kept |
| Networks.ZeroForgetsContents | lib/neuralnet.c:241-242 | zeroing depends only on the architecture, so it erases whatever the fresh storage held; it is idempotent |
| Networks.ForwardLayer | lib/neuralnet.cpp:93-97 | multiply, add bias, then activate computes one layer act(a·W + b) |
| Networks.Acts | lib/neuralnet.cpp:91-99 | a_0 is the input and each a_{i+1} is the layer applied to a_i, with width arch[i+1] |
| Networks.Output | lib/neuralnet.h:190 | the corrected `NN_OUTPUT` (the macro as written overruns, see Findings): the output buffer a_n, whose width is the output layer's width arch[n] |
| Networks.Forward | lib/neuralnet.cpp:91-99 | parameters and the input buffer are unchanged; every later activation row is the layer applied to the previous one |
| Networks.ActsAgree | lib/neuralnet.cpp:91-99 | two networks with the same parameters and input produce the same activations layer by layer |
| Networks.ForwardIgnoresStaleActivations | lib/neuralnet.cpp:91-99 | the forward pass does not depend on what the non-input activation buffers held |
| Networks.Load | lib/neuralnet.cpp:111 | copying a row into the input buffer sets a_0 to it and leaves the parameters and every other activation row unchanged |
| Networks.InputPart | lib/neuralnet.cpp:108 | the input slice of a table row has the input width |
| Networks.TargetPart | lib/neuralnet.cpp:109 | the target slice of a table row has the output width |
| Networks.SqErr | lib/neuralnet.cpp:113-117 | the summed squared output error of one row is never negative |
| Networks.SqErrSelf | lib/neuralnet.cpp:115-116 | the squared error of an exact output is zero |
| Networks.TotalNonNegative | lib/neuralnet.c:213-226 | summing non-negative row errors gives a non-negative total |
| Networks.TotalZero | lib/neuralnet.c:213-226 | summing zero row errors gives zero |
| Networks.RowErrors | lib/neuralnet.c:213-226 | one non-negative error per table row |
| Networks.Cost | lib/neuralnet.cpp:101-121 | requires a table fitting nn with at least one row; the mean squared error is ≥ 0 |
| Networks.ReproducedRowHasNoError | lib/neuralnet.cpp:113-117 | a row whose target the network reproduces adds no error |
| Networks.CostZeroWhenReproduced | lib/neuralnet.c:209-229 | a network reproducing every target has cost 0, which is minimal over every table |
| Networks.SqErrZeroMeansEqual | lib/neuralnet.c:221-224 | a row whose summed squared error is 0 has its output equal to its target in every column |
| Networks.TotalZeroParts | lib/neuralnet.c:213-226 | a sum of non-negative row errors is 0 only when every row error is 0 |
| Networks.CostZeroOnlyWhenReproduced | lib/neuralnet.c:209-229 | cost 0 means the network reproduces the target of every table row |
| Networks.CostZeroIffReproduced | lib/neuralnet.c:209-229 | the cost is 0 exactly when the network reproduces the target of every row |
| Networks.SplitErrors | lib/neuralnet.h:455-466 | one non-negative error per row of the split tables |
| Networks.CostSplit | lib/neuralnet.h:449-469 | requires ti.rows = to.rows and to.cols = the output width; the mean squared error is ≥ 0 |
| Networks.InputColumns | lib/neuralnet.h:449-451 | the input columns of a table form a table of the input width |
| Networks.TargetColumns | lib/neuralnet.h:449-451 | the target columns of a table form a table of the output width |
| Networks.CostAgreesWithSplit | lib/neuralnet.h:449-469 | the combined-table cost equals the split-table cost on its input and target columns |
| Networks.Learn | lib/neuralnet.cpp:192-204 | the corrected `nn_learn` (these lines overrun, see Findings): each weight and bias becomes param − rate·grad; the architecture and activations are untouched |
| Networks.LearnIdentity | lib/neuralnet.cpp:192-204 | rate 0 or a zero gradient changes nothing |
| Networks.LearnCompose | lib/neuralnet.cpp:192-204 | two steps with rates r1 and r2 along one gradient make one step with rate r1 + r2 |
| Backprop.Signal | lib/neuralnet.c:269-273 | one error-signal cell per activation cell |
| Backprop.SignalOfZero | lib/neuralnet.c:270-273 | a zero delta gives a zero signal |
| Backprop.BackRow | lib/neuralnet.c:278-280 | the back-propagated delta has one cell per row of W |
| Backprop.BackRowOfZero | lib/neuralnet.c:278-280 | a zero signal propagates back as a zero delta |
| Backprop.Delta | lib/neuralnet.c:257-283 | the delta of layer l has width arch[l] |
| Backprop.SampleGradient | lib/neuralnet.c:268-283 | one row's contribution has the network's architecture |
| Backprop.AddSample | lib/neuralnet.c:273-280 | adding a row's contribution keeps the architecture, and the activation rows take that row's deltas |
| Backprop.Averaged | lib/neuralnet.c:290-295 | dividing by n keeps the architecture and the activation rows |
| Backprop.RowPass | lib/neuralnet.c:249-284 | one row's pass keeps nn's parameters and architecture |
| Backprop.Start | lib/neuralnet.c:241-242 | the gradient starts zeroed, with nn's architecture; nn is as given |
| Backprop.Accumulate | lib/neuralnet.c:249-284 | after any number of rows, nn's weights and biases are unchanged and the gradient keeps nn's shape |
| Backprop.DivThenMul | lib/neuralnet.c:290-295 | dividing by a positive count and multiplying back is the identity |
| Backprop.AveragedEntries | lib/neuralnet.c:290-295 | every weight and bias entry is divided by n |
| Backprop.QuotientsUndone | lib/neuralnet.c:290-295 | entrywise quotients multiplied back by n give the dividends |
| Backprop.AveragedUndone | lib/neuralnet.c:290-295 | averaging is undone by multiplying back by n |
| Backprop.AveragedOfZero | lib/neuralnet.c:290-295 | the average of a zero gradient is zero |
| Backprop.RowPassOutputDelta | lib/neuralnet.c:261-264 | after a row's pass the gradient's output row is output − target |
| Backprop.LastPassIsFresh | lib/neuralnet.c:250-264 | after m rows, nn's buffers hold the forward pass of row m, and the gradient's output row holds that row's output − target |
| Backprop.Finish | lib/neuralnet.c:290-295 | the final division makes the gradient the sum divided by the row count, and keeps the output delta |
| Backprop.Backprop | lib/neuralnet.c:237-298 | requires a table fitting nn with ≥ 1 row; nn's weights and biases are untouched; the gradient has nn's shape and is the per-row sum divided by t.rows; nn's buffers hold the last row's forward pass; the gradient's output row holds that row's output − target |
| Backprop.BackpropIgnoresJunk | lib/neuralnet.c:241-242 | because the gradient is zeroed first, the result does not depend on what fresh storage held |
| Backprop.DeltaOfExactOutput | lib/neuralnet.c:261-283 | when the output equals the target, every layer's delta vanishes |
| Backprop.SampleGradientOfExactOutput | lib/neuralnet.c:268-283 | a row the network reproduces contributes nothing to any weight or bias |
| Backprop.AddSampleOfZeros | lib/neuralnet.c:273-280 | adding a zero contribution to a zero gradient keeps it zero |
| Backprop.RowPassOfReproduced | lib/neuralnet.c:249-284 | a reproduced row leaves a zero gradient zero |
| Backprop.ReproducesFirstOfAll | lib/neuralnet.c:249 | reproducing each of the first m rows means reproducing the first m rows |
| Backprop.AccumulateOfReproduced | lib/neuralnet.c:249-284 | from a zero gradient, reproduced rows keep the gradient zero |
| Backprop.BackpropOfReproduced | lib/neuralnet.c:237-298 | a network that reproduces every row gets a zero weight and bias gradient |
| FiniteDiff.SetWeight | lib/neuralnet.h:543 | writing one weight entry changes that entry only |
| FiniteDiff.SetBias | lib/neuralnet.h:552 | writing one bias entry changes that entry only |
| FiniteDiff.SetWeightRestores | lib/neuralnet.h:542-545 | writing the saved weight back restores the network exactly |
| FiniteDiff.SetBiasRestores | lib/neuralnet.h:551-554 | writing the saved bias back restores the network exactly |
| FiniteDiff.Slope | lib/neuralnet.h:544 | the difference quotient s satisfies c + eps·s = c′ |
| FiniteDiff.ProbeWeight | lib/neuralnet.h:542-545 | after probing one weight the network is unchanged; the slope is the quotient of the nudged cost |
| FiniteDiff.ProbeBias | lib/neuralnet.h:551-554 | after probing one bias the network is unchanged; the slope is the quotient of the nudged cost |
| FiniteDiff.WeightSlopes | lib/neuralnet.h:539-547 | the weight loop's results have the weights' shapes and hold one slope per weight entry |
| FiniteDiff.BiasSlopes | lib/neuralnet.h:549-556 | the bias loop's results have the biases' shapes and hold one slope per bias entry |
| FiniteDiff.FiniteDiffOf | lib/neuralnet.h:535-558 | nn is unchanged afterwards; every weight and bias entry of g becomes (cost(param + eps) − cost)/eps; g keeps its architecture and activations |
| FiniteDiff.FlatCostGivesZeroSlope | lib/neuralnet.h:544 | a weight whose nudge leaves the cost unchanged gets gradient entry 0 |
| FiniteDiff.SlopeSign | lib/neuralnet.h:544 | for eps > 0 the slope is positive exactly when the nudge raised the cost, and negative exactly when it lowered it |
| Batches.Restart | lib/src/nn_batch.cpp:7-11 | a finished batch restarts at begin 0 with cost 0; an unfinished one is untouched |
| Batches.SliceSize | lib/src/nn_batch.cpp:13-16 | the slice has between 1 and batch_size rows, stays inside the table, and is short only where the table ends |
| Batches.BatchCountIsCeiling | lib/src/nn_batch.cpp:32 | (rows + bs − 1)/bs is ⌈rows/bs⌉: at least 1, and the least count of slices covering the table |
| Batches.Advance | lib/src/nn_batch.cpp:7-31 | begin grows by batch_size from the restarted start, and finished holds exactly when begin ≥ rows |
| Batches.Account | lib/src/nn_batch.cpp:28-35 | the slice cost is added to the running cost; at the epoch's end the sum is divided by the slice count; the cost stays ≥ 0 |
| Batches.Mean | lib/src/nn_batch.cpp:33 | the divided cost multiplied back by the count gives the sum, and it keeps the sum's sign |
| Batches.TrainOn | lib/neuralnet.c:377-378 | backprop and a learning step on the slice keep the network's architecture |
| Batches.Process | lib/neuralnet.c:356-387 | on the corrected row view (see Findings), trains and then costs rows [begin, begin + size) of the table, where begin is the restarted begin and size is batch_size or the rows left; begin then moves on by batch_size, finished holds exactly when begin ≥ rows, and the running cost gains the slice cost, divided by ⌈rows/batch_size⌉ exactly when finished |
| Batches.ProcessAccounts | lib/neuralnet.c:379-385 | the state a call leaves is the bookkeeping of the slice cost it added |
| Batches.EpochProgress | lib/src/nn_batch.cpp:29-35 | from an epoch start, call k leaves begin = k·batch_size and is finished exactly at k = ⌈rows/bs⌉ |
| Batches.EpochLength | lib/src/nn_batch.cpp:29-35 | an epoch takes exactly ⌈rows/bs⌉ calls and is unfinished before that |
| Batches.OneCallWhenBatchCoversTable | lib/src/nn_batch.cpp:13-35 | with batch_size ≥ rows one call covers the whole table and finishes the epoch |
| Batches.SlicesPartitionTable | lib/src/nn_batch.cpp:13-24 | every table row lies in the slice of exactly one call of the epoch, call ⌊r/bs⌋ |
| Batches.Run | lib/src/nn_batch.cpp:28-35 | the bookkeeping of k calls moves the cursor as k Advance steps |
| Batches.RunReportsMean | lib/src/nn_batch.cpp:28-35 | within an epoch the cost is the sum of slice costs so far; at its end it is their mean |
| Batches.RunSnoc | lib/src/nn_batch.cpp:28-35 | accounting one more cost after the bookkeeping of a cost list is the bookkeeping of the list extended by that cost |
| Batches.Train | lib/neuralnet.c:356-387 | k successive calls keep the architecture, record one slice cost per call, and leave the batch state the bookkeeping of those costs gives, in call order |
| Batches.CallStart | lib/src/nn_batch.cpp:7-31 | from a fresh batch, after k calls short of an epoch, the next slice starts at row k·batch_size, inside the table |
| Batches.TrainSlice | lib/neuralnet.c:356-375 | call k + 1 of an epoch starts its slice at k·batch_size and trains on exactly the rows r with ⌊r/batch_size⌋ = k |
| Batches.EpochReportsMeanCost | lib/neuralnet.c:379-385 | after one epoch of calls from a fresh batch, the reported cost is the mean of the costs of its slices |
| AsWritten.WordsForAsWritten | lib/neuralnet.c:334 | the size_t rounding never gives more words than the request needs: at most ⌈bytes/8⌉, and fewer than (bytes + 8)/8 |
| AsWritten.WordsForAsWrittenAgreesBelowWrap | lib/neuralnet.c:334 | the size_t rounding equals true rounding exactly when the request is at most 2^64 − 8 bytes |
| AsWritten.HugeRequestFitsAnywhere | lib/neuralnet.c:334-337 | a SIZE_MAX-byte request rounds to 0 words and passes the capacity test, though it cannot fit |
| AsWritten.ArrayBytesAsWritten | lib/neuralnet.c:153-155 | the weight and bias array byte counts are never negative |
| AsWritten.ArrayBytes | lib/neuralnet.h:395-397 | the intended count is one element fewer than arch_count elements |
| AsWritten.ArrayBytesAsWrittenOverAllocates | lib/neuralnet.c:153-155 | the as-written count exceeds the intended one by exactly elemSize − 1 bytes |
| AsWritten.ZeroLoopOverruns | lib/neuralnet.c:172-177 | on an allocated network, the as-written loop reaches an index past the weight array; the loop is `AsWritten.ZeroLoopAsWritten` and the whole of `nn_zero` is `AsWritten.NnZeroAsWritten` |
| AsWritten.NnZeroAsWrittenOverruns | lib/neuralnet.c:171-178 | `nn_zero` as written indexes out of bounds on every network `nn_alloc` creates |
| AsWritten.LearnLoopOverruns | lib/neuralnet.c:301-311 | on an allocated network, the as-written loop reaches an index past the weight array; the loop is `AsWritten.LearnLoopAsWritten` and the whole of `nn_learn` is `AsWritten.LearnAsWritten` |
| AsWritten.LearnAsWrittenOverruns | lib/neuralnet.c:300-312 | `nn_learn` as written indexes out of bounds on every network `nn_alloc` creates |
| AsWritten.SubRowsAsWritten | lib/neuralnet.c:371-375 | the `batch_t` view as written, with its stride left at 0: it has size rows of the table's width, and every one of them is row begin |
| AsWritten.BatchViewAgreesOnlyOnRepeatedRows | lib/neuralnet.c:371-375 | the stride-0 view equals the intended slice of rows [begin, begin + size) exactly when all those rows equal row begin |
| AsWritten.OutputAsWrittenOverruns | lib/neuralnet.h:190 | on networks `nn_alloc` creates, `NN_OUTPUT` as written (`AsWritten.OutputAsWritten`) is out of bounds, and so is the output-delta write of `nn_backprop` (`AsWritten.OutputDeltaAsWritten`, lib/neuralnet.c:261-264) |
| AsWritten.FirstBatchRepeatsRowZero | lib/neuralnet.c:371-375 | for a 4-row table in batches of 2, the first view holds row 0 twice where the slice holds rows 0 and 1 |

## Left out

- Floating point: `float` is `real`, so rounding, overflow, NaN and infinities are not modelled. For that reason a table with zero rows is excluded by `requires` in Cost, CostSplit, Backprop and FiniteDiffOf, where the source would divide by zero. The same holds for eps = 0 in FiniteDiffOf and batch_size = 0 in Process.
- Transcendental activations: sigmoid, tanh, sin and cos∘asin are supplied as opaque functions (`Activations.Transcendentals`), and the network modules take any `act` and `df`.
- Randomness: `rand_float`, `matrix_randomize` and `nn_rand` use the global C generator and are not modelled. The shuffle's random picks are an argument.
- Printing: `matrix_print` and `nn_print` are not modelled.
- Heap internals: `NN_MALLOC` and the C++ constructors are opaque. A heap block is a `HeapBlock(bytes)` value.
- Buffer contents of the region are not modelled. Blocks are word ranges, and the values written into them are the Mat and Network values.
- Region growth in `batch_process`: each call allocates a gradient from the region. The model does not thread the region through the batch calls; it gives backprop the stale value of fresh storage, which `Backprop.BackpropIgnoresJunk` shows is irrelevant.
- Activation buffers written by cost: `nn_cost` and the cost calls inside `nn_finite_diff` overwrite the network's activation buffers. The model returns the cost only. `Networks.ForwardIgnoresStaleActivations` shows that later forward passes do not depend on those buffers.
- FiniteDiff.FiniteDiffOf: states the gradient and the restored network; the activation buffers are left as described above.
- Backprop.Backprop: states the bookkeeping only (shape, zero start, output delta, averaging, parameters untouched, last-row forward pass). Whether it equals the true derivative of the cost is not attempted.
- Batches.Process: the Batch structure's initial value is not visible in the sources (only its declaration is), so the initial state is an argument; `Batches.Fresh` names the states an epoch can start from.
- Arena.SaveWrapper, Arena.ResetWrapper, Arena.RewindWrapper: the `Region` members they call (lib/src/nn_region.cpp:22, 29, 36) are declaration-only, so the wrappers are modelled on the C macros `region_reset`, `region_save` and `region_rewind` in lib/neuralnet.h. The C++ `save(Region*)` also returns nothing; SaveWrapper returns the checkpoint, as `region_save` does.
- Arena.Alloc, Arena.RegionAlloc: the model follows a build with `NN_ASSERT` compiled out. `NN_ASSERT` is `assert` (lib/neuralnet.h:24), and `region_alloc` asserts that the request fits before its NULL test (lib/neuralnet.c:336, lib/nn_region.cpp:27), so in the default build an over-capacity request aborts instead of returning NULL.
- Names the sources use but never define. In lib/neuralnet.h: `r->count` in `region_alloc` (line 598), `(r)->words` in `region_occupied_bytes` (line 91), `asif` in `actdf` (line 286), and in its `nn_backprop` the network `nn` (lines 479-481), `s`, `to`, `out` and `g.bs`. The row accessor `ROW_AT(row, col)` is defined only at lib/neuralnet.h:108, as `(r).elements[(col)]`, which ignores its row argument. lib/neuralnet.c uses it where `r` is not a row (lines 223, 262-280, 293, 309, 402), and lib/neuralnet.cpp uses it (lines 115, 154-201, 296) with no definition in its include chain. So no copy compiles as written. The model reads `ROW_AT(row, j)` as element j of `row`, `words` as the region's 8-byte word, `asif` as `asinf`, and the header's backprop as the engines' one.
- Matrix strides. `MAT_AT(m, i, j)` is `elements[i * stride + j]` (lib/neuralnet.h:118), and the stride field is marked for removal (lib/neuralnet.h:98). No copy of `matrix_alloc` sets it (lib/neuralnet.c:47-55, lib/neuralnet.h:295-303, lib/src/nn_matrix.cpp:9-17), so allocated matrices have an indeterminate stride. The model reads `MAT_AT(m, i, j)` as `cells[i][j]`, which means a stride equal to the column count, the row-major layout that the C++ `Matrix::at` spells out as `i * cols + j` (lib/neuralnettmp.h:76-79) and that the header's `matrix_row` keeps by copying the stride (lib/neuralnet.h:368-375). `row_as_matrix` (lib/neuralnet.c:389-395) also leaves the stride at 0, which is harmless because its matrix has one row. The stride-0 `batch_t` of `batch_process` is not harmless and is listed under Findings.
- Declaration-only headers and the empty `NN::` member stubs have no behaviour to model.
- The `default:` assertion of the activation switches cannot be reached, because `Activation` is a closed datatype.

## Findings

| source | as written | input that shows it | evidently intended | confidence | as-written member | corrected member |
|---|---|---|---|---|---|---|
| lib/neuralnet.c:334 | `(size + word_size - 1) / word_size` in size_t wraps for requests within 7 bytes of SIZE_MAX | size = 2^64 − 1: 0 words, so the capacity test passes on a full region | ⌈size/8⌉ words, refused when it does not fit | not executed; high (only reachable with huge requests) | AsWritten.WordsForAsWritten, AsWritten.HugeRequestFitsAnywhere | Arena.WordsFor, Arena.WordsForIsLeast |
| lib/neuralnet.c:153-155 | `sizeof(*nn.weights) * nn.arch_count - 1` parses as (size · count) − 1 bytes; lib/neuralnet.cpp:44-46 has the same text | arch_count = 1: asks for elemSize − 1 bytes for zero layers | size · (arch_count − 1) bytes | not executed; high (harmless over-allocation) | AsWritten.ArrayBytesAsWritten, AsWritten.ArrayBytesAsWrittenOverAllocates | AsWritten.ArrayBytes |
| lib/neuralnet.c:171-178 | `nn_zero` loops i < arch_count = len(arch) over arrays of len(arch) − 1 weights, then fills activations[len(arch)]; lib/neuralnet.cpp:63-70 is the same loop | any architecture, e.g. [2, 1]: weights[1] is read | zero the n weights and biases and the n + 1 activation rows | not executed; high | AsWritten.NnZeroAsWritten, AsWritten.NnZeroAsWrittenOverruns | Networks.NnZero |
| lib/neuralnet.c:300-312 | `nn_learn` loops i < arch_count = len(arch) over len(arch) − 1 weight matrices; lib/neuralnet.cpp:192-204 is the same loop | any architecture, e.g. [2, 1]: weights[1] is read and written | step the n weight matrices and bias rows | not executed; high | AsWritten.LearnAsWritten, AsWritten.LearnAsWrittenOverruns | Networks.Learn |
| lib/neuralnet.c:371-375 | `batch_process` builds `batch_t` without `.stride`, so the stride is 0 and `MAT_AT(batch_t, i, j)` (lib/neuralnet.h:118) reads row `begin` for every i; lib/src/nn_batch.cpp:20-24 is the same text | 4 rows, batch_size = 2: the first call trains and costs row 0 twice and never row 1 | the slice of rows [begin, begin + size) | not executed; high | AsWritten.SubRowsAsWritten, AsWritten.BatchViewAgreesOnlyOnRepeatedRows, AsWritten.FirstBatchRepeatsRowZero | Matrices.SubRows |
| lib/neuralnet.h:190 | `NN_OUTPUT(nn)` is `activations[arch_count]`, and `nn_alloc` stores arch_count = len(arch) with len(arch) activation rows (lib/neuralnet.c:151, 157), so it is one past the end; `nn_cost` reads it (lib/neuralnet.c:210-223) and `nn_backprop` writes the output delta through it (lib/neuralnet.c:261-264); lib/neuralnet.cpp uses it the same way (lines 102-115, 154-155) although its include chain does not define it | any architecture, e.g. [2, 1]: activations[2] of a 2-slot array | the output buffer a_n = activations[len(arch) − 1] | not executed; high | AsWritten.OutputAsWritten, AsWritten.OutputDeltaAsWritten, AsWritten.OutputAsWrittenOverruns | Networks.Output, Backprop.RowPassOutputDelta |

=== FILE: activations.dfy ===
/**
 * The activation-function table: the four selectable activations and the
 * derivative table `activationdf`, which takes the activation's OUTPUT y and
 * returns the slope at the input that produced it.
 *
 * Sigmoid, tanh and sin are transcendental; their forward values (and the
 * derivative of sin, cos(asin y)) are supplied by the caller as opaque
 * functions. ReLU and every other derivative are plain real expressions.
 */
module Activations {

  /** The activation selector. Being a closed datatype, no selector outside the four exists. */
  datatype Activation = Sigmoid | Relu | Tanh | Sin

  /** The leak slope of ReLU, `NN_RELU_PARAM`. */
  const ReluParam: real := 0.01

  /** The transcendental functions the table relies on but does not define. */
  datatype Transcendentals = Transcendentals(
    sigmoid: real -> real,
    tanh: real -> real,
    sin: real -> real,
    cosAsin: real -> real)

  /** `reluf`: the identity above 0, slope `ReluParam` at and below 0; as the slope is below 1, that is max(x, ReluParam·x). */
  function ReluF(x: real): (y: real)
    ensures y == x || y == x * ReluParam
    ensures y >= x && y >= x * ReluParam
  {
    if x > 0.0 then x else x * ReluParam
  }

  /** ReLU keeps the sign of its input, strictly: a positive output means a positive input. */
  lemma ReluKeepsSign(x: real)
    ensures ReluF(x) > 0.0 <==> x > 0.0
    ensures ReluF(x) == 0.0 <==> x == 0.0
  {
  }

  /** ReLU is strictly increasing. */
  lemma ReluStrictlyIncreasing(x: real, y: real)
    requires x < y
    ensures ReluF(x) < ReluF(y)
  {
  }

  /**
   * `activationf`: dispatch on the selector. ReLU is leaky ReLU; the other
   * three are the caller's transcendental functions, applied to x itself.
   */
  function ActivationF(act: Activation, x: real, t: Transcendentals): (y: real)
    ensures act == Relu ==> (y > 0.0 <==> x > 0.0) && y >= x && y >= x * ReluParam && (y == x || y == x * ReluParam)
    ensures act == Sigmoid ==> y == t.sigmoid(x)
    ensures act == Tanh ==> y == t.tanh(x)
    ensures act == Sin ==> y == t.sin(x)
  {
    match act
    case Sigmoid => t.sigmoid(x)
    case Relu => ReluF(x)
    case Tanh => t.tanh(x)
    case Sin => t.sin(x)
  }

  /**
   * `activationdf` (engine sources): derivative in terms of the output y.
   * ReLU's is 1 exactly for y >= 0 and the leak slope below; sigmoid's lies in
   * (0, 1/4] and tanh's in (0, 1] for outputs those functions can produce;
   * sin's is the caller's cos(asin y).
   */
  function ActivationDf(act: Activation, y: real, t: Transcendentals): (d: real)
    ensures act == Relu ==> d > 0.0 && (d == 1.0 <==> y >= 0.0) && (y < 0.0 ==> d == ReluParam)
    ensures act == Sigmoid && 0.0 < y < 1.0 ==> 0.0 < d <= 0.25
    ensures act == Tanh && -1.0 < y < 1.0 ==> 0.0 < d <= 1.0
    ensures act == Sin ==> d == t.cosAsin(y)
  {
    match act
    case Sigmoid =>
      assert 0.25 - y * (1.0 - y) == (y - 0.5) * (y - 0.5);
      y * (1.0 - y)
    case Relu => if y >= 0.0 then 1.0 else ReluParam
    case Tanh =>
      TanhOutputSquare(y);
      1.0 - y * y
    case Sin => t.cosAsin(y)
  }

  /** On (−1, 1) the square of y is below 1. */
  lemma TanhOutputSquare(y: real)
    ensures -1.0 < y < 1.0 ==> y * y < 1.0
  {
    if -1.0 < y < 1.0 {
      if y >= 0.0 {
        assert y * y <= y * 1.0;
      } else {
        assert y * y <= (-y) * 1.0;
      }
    }
  }

  /** `actdf` (single-header draft): the same table except that ReLU's derivative is 1 only for y > 0. */
  function ActDfHeader(act: Activation, y: real, t: Transcendentals): (d: real)
    ensures act == Relu ==> d > 0.0 && (d == 1.0 <==> y > 0.0) && (y <= 0.0 ==> d == ReluParam)
    ensures act != Relu ==> d == ActivationDf(act, y, t)
  {
    match act
    case Sigmoid => y * (1.0 - y)
    case Relu => if y > 0.0 then 1.0 else ReluParam
    case Tanh => 1.0 - y * y
    case Sin => t.cosAsin(y)
  }

  /** The two derivative tables disagree exactly at ReLU with output 0. */
  lemma DerivativeTablesDisagreeOnlyAtReluZero(act: Activation, y: real, t: Transcendentals)
    ensures ActivationDf(act, y, t) != ActDfHeader(act, y, t) <==> act == Relu && y == 0.0
  {
  }

  /**
   * ReLU's derivative, read off its output, is its true slope: on either side
   * of 0, stepping the input by h moves the output by exactly df·h.
   */
  lemma ReluDerivativeIsSlope(x: real, h: real, t: Transcendentals)
    requires x != 0.0
    requires (x > 0.0 && x + h > 0.0) || (x < 0.0 && x + h < 0.0)
    ensures ReluF(x + h) == ReluF(x) + ActivationDf(Relu, ActivationF(Relu, x, t), t) * h
  {
  }

  /** For a sigmoid output in (0, 1) the derivative y(1 − y) lies in (0, 1/4]. */
  lemma SigmoidDerivativeBounds(y: real, t: Transcendentals)
    requires 0.0 < y < 1.0
    ensures 0.0 < ActivationDf(Sigmoid, y, t) <= 0.25
  {
  }

  /** For a tanh output in (−1, 1) the derivative 1 − y² lies in (0, 1]. */
  lemma TanhDerivativeBounds(y: real, t: Transcendentals)
    requires -1.0 < y < 1.0
    ensures 0.0 < ActivationDf(Tanh, y, t) <= 1.0
  {
    TanhOutputSquare(y);
  }
}

=== FILE: arena.dfy ===
/**
 * The region (arena) bump allocator: a fixed buffer of machine words and a
 * cursor `size` counting the words already handed out. Blocks are carved
 * from the cursor upwards; nothing is freed individually, the cursor is only
 * ever moved back by `reset` and `rewind`.
 *
 * Addresses are modelled as word offsets into the buffer; the buffer's
 * contents are not modelled (every allocation is storage the caller fills).
 */
module Arena {
  import opened Wrappers

  /** Bytes per buffer word: the buffer holds `uintptr_t`, 8 bytes on an LP64 target. */
  const WordSize: nat := 8

  /** A region of `capacity` words whose first `size` words are in use. */
  datatype Region = Region(capacity: nat, size: nat) {
    /** The cursor never passes the end of the buffer. */
    predicate Valid() {
      size <= capacity
    }
  }

  /** What an allocation hands back: NULL, a fresh heap block, or `words` words at word `offset` of the region. */
  datatype Pointer = Null | HeapBlock(bytes: nat) | ArenaBlock(offset: nat, words: nat)

  /** The region after an allocation from it, and the block it returned. */
  datatype Carved = Carved(region: Region, ptr: Pointer)

  /** The (possibly null) region after `region_alloc`, and the block it returned. */
  datatype Allocation = Allocation(arena: Option<Region>, ptr: Pointer)

  /** Number of words a request of `bytes` bytes occupies: the request rounded up to whole words. */
  function WordsFor(bytes: nat): (words: nat)
    ensures words * WordSize >= bytes
    ensures words * WordSize < bytes + WordSize
  {
    (bytes + WordSize - 1) / WordSize
  }

  /** Rounding up is exact: no smaller word count holds the request. */
  lemma WordsForIsLeast(bytes: nat, w: nat)
    requires w * WordSize >= bytes
    ensures w >= WordsFor(bytes)
  {
  }

  /** `region_alloc_alloc`: a region whose buffer holds `capacityBytes` rounded up to whole words, with nothing in use. */
  function RegionAllocAlloc(capacityBytes: nat): (r: Region)
    ensures r.Valid() && r.size == 0
    ensures r.capacity * WordSize >= capacityBytes
    ensures r.capacity * WordSize < capacityBytes + WordSize
  {
    Region(WordsFor(capacityBytes), 0)
  }

  /** A request of `bytes` bytes still fits behind the cursor of `r`. */
  predicate Fits(r: Region, bytes: nat) {
    r.size + WordsFor(bytes) <= r.capacity
  }

  /**
   * Allocation from a non-null region: the request is rounded up to whole
   * words; if they do not fit the result is NULL and nothing moves, otherwise
   * the block starts at the old cursor and the cursor advances past it.
   */
  function Alloc(r: Region, bytes: nat): (c: Carved)
    ensures c.region.capacity == r.capacity
    ensures r.Valid() ==> c.region.Valid()
    ensures c.ptr.Null? <==> !Fits(r, bytes)
    ensures c.ptr.Null? ==> c.region == r
    ensures !c.ptr.HeapBlock?
    ensures c.ptr.ArenaBlock? ==>
      && c.ptr.offset == r.size
      && c.ptr.words * WordSize >= bytes
      && c.ptr.words * WordSize < bytes + WordSize
      && c.ptr.offset + c.ptr.words <= r.capacity
      && c.region.size == r.size + c.ptr.words
  {
    var count := WordsFor(bytes);
    if r.size + count > r.capacity then
      Carved(r, Null)
    else
      Carved(Region(r.capacity, r.size + count), ArenaBlock(r.size, count))
  }

  /**
   * `region_alloc`: a null region falls back to the heap and no region is
   * involved; a non-null one is allocated from as in `Alloc`.
   */
  function RegionAlloc(arena: Option<Region>, bytes: nat): (a: Allocation)
    ensures arena.None? ==> a.arena.None? && a.ptr == HeapBlock(bytes)
    ensures arena.Some? ==> a.arena.Some? && a.arena.value.capacity == arena.value.capacity
    ensures arena.Some? && arena.value.Valid() ==> a.arena.Some? && a.arena.value.Valid()
    ensures arena.Some? && !Fits(arena.value, bytes) ==> a == Allocation(arena, Null)
    ensures arena.Some? && Fits(arena.value, bytes) ==>
      a.ptr == ArenaBlock(arena.value.size, WordsFor(bytes)) &&
      a.arena == Some(Region(arena.value.capacity, arena.value.size + WordsFor(bytes)))
  {
    match arena
    case None => Allocation(None, HeapBlock(bytes))
    case Some(r) =>
      var c := Alloc(r, bytes);
      Allocation(Some(c.region), c.ptr)
  }

  /** Two allocations in a row: the second block starts where the first ends, so they never overlap. */
  lemma AllocContiguous(r: Region, first: nat, second: nat)
    requires r.Valid()
    requires Alloc(r, first).ptr.ArenaBlock?
    requires Alloc(Alloc(r, first).region, second).ptr.ArenaBlock?
    ensures
      var p := Alloc(r, first).ptr;
      var q := Alloc(Alloc(r, first).region, second).ptr;
      q.offset == p.offset + p.words && p.offset + p.words <= q.offset
  {
  }

  /** `region_reset`: the cursor goes back to the start of the buffer. */
  function Reset(r: Region): (r': Region)
    ensures r'.Valid() && r'.capacity == r.capacity && r'.size == 0
  {
    r.(size := 0)
  }

  /** `region_save`: the checkpoint is the current cursor. */
  function Save(r: Region): (checkpoint: nat)
    ensures r.Valid() ==> checkpoint <= r.capacity
  {
    r.size
  }

  /** `region_rewind`: the cursor is set to `checkpoint` as given; the buffer is not touched. */
  function Rewind(r: Region, checkpoint: nat): (r': Region)
    ensures r'.capacity == r.capacity && r'.size == checkpoint
    ensures checkpoint <= r.capacity ==> r'.Valid()
  {
    r.(size := checkpoint)
  }

  /** `region_occupied_bytes`: the bytes in use, the cursor scaled by the word size. */
  function OccupiedBytes(r: Region): (bytes: nat)
    ensures bytes % WordSize == 0 && bytes / WordSize == r.size
  {
    r.size * WordSize
  }

  /** The region after serving the allocation requests `requests` (in bytes) one after another. */
  function AllocAll(r: Region, requests: seq<nat>): Region
    decreases |requests|
  {
    if |requests| == 0 then r
    else AllocAll(Alloc(r, requests[0]).region, requests[1..])
  }

  /** Allocations never shrink the used part, never resize the buffer and keep the cursor in range. */
  lemma {:induction false} AllocAllGrows(r: Region, requests: seq<nat>)
    requires r.Valid()
    ensures AllocAll(r, requests).capacity == r.capacity
    ensures AllocAll(r, requests).Valid()
    ensures AllocAll(r, requests).size >= r.size
    decreases |requests|
  {
    if |requests| > 0 {
      AllocAllGrows(Alloc(r, requests[0]).region, requests[1..]);
    }
  }

  /**
   * Rewinding to a saved checkpoint undoes every allocation made since, and
   * the next allocation starts again at the checkpoint.
   */
  lemma {:induction false} RewindToSave(r: Region, requests: seq<nat>, next: nat)
    requires r.Valid()
    ensures Rewind(AllocAll(r, requests), Save(r)) == r
    ensures OccupiedBytes(Rewind(AllocAll(r, requests), Save(r))) == Save(r) * WordSize
    ensures Fits(r, next) ==>
      Alloc(Rewind(AllocAll(r, requests), Save(r)), next).ptr == ArenaBlock(Save(r), WordsFor(next))
  {
    AllocAllGrows(r, requests);
  }

  /** After a reset, the next allocation that fits the whole buffer starts at word 0. */
  lemma ResetThenAlloc(r: Region, bytes: nat)
    requires WordsFor(bytes) <= r.capacity
    ensures Alloc(Reset(r), bytes).ptr == ArenaBlock(0, WordsFor(bytes))
  {
  }

  /** The null-tolerant `reset` wrapper: a no-op on a null region, `Reset` otherwise. */
  function ResetWrapper(arena: Option<Region>): (a: Option<Region>)
    ensures arena.None? ==> a.None?
    ensures arena.Some? ==> a == Some(Reset(arena.value))
  {
    match arena
    case None => None
    case Some(r) => Some(Reset(r))
  }

  /**
   * The null-tolerant `save` wrapper: nothing on a null region, the region's
   * checkpoint otherwise; the region itself is never changed.
   */
  function SaveWrapper(arena: Option<Region>): (checkpoint: Option<nat>)
    ensures arena.None? <==> checkpoint.None?
    ensures arena.Some? ==> checkpoint == Some(Save(arena.value))
  {
    match arena
    case None => None
    case Some(r) => Some(Save(r))
  }

  /** The null-tolerant `rewind` wrapper: a no-op on a null region, `Rewind` with the same checkpoint otherwise. */
  function RewindWrapper(arena: Option<Region>, checkpoint: nat): (a: Option<Region>)
    ensures arena.None? ==> a.None?
    ensures arena.Some? ==> a == Some(Rewind(arena.value, checkpoint))
  {
    match arena
    case None => None
    case Some(r) => Some(Rewind(r, checkpoint))
  }

  /** Saving through the wrapper and rewinding through the wrapper restores a non-null region exactly. */
  lemma WrapperRewindToSave(r: Region, requests: seq<nat>)
    requires r.Valid()
    ensures RewindWrapper(Some(AllocAll(r, requests)), SaveWrapper(Some(r)).value) == Some(r)
  {
    RewindToSave(r, requests, 0);
  }
}

=== FILE: as_written.dfy ===
/**
 * Places where the C engine sources, read literally, do something other
 * than what the rest of the code evidently intends. Each is modelled here AS
 * WRITTEN, with a lemma exhibiting the discrepancy; the corrected behaviour
 * is the one the other modules define and prove things about.
 *
 * In the C engine `nn_alloc` stores the FULL architecture length in
 * `arch_count` (n + 1 for a network of n weight layers), while `nn_zero`,
 * `nn_learn` and the output macro index as if it held n.
 */
module AsWritten {
  import opened Wrappers
  import opened Arena
  import opened Matrices
  import opened Networks

  // ---------------------------------------------------------------------
  // Word rounding in `region_alloc` with 64-bit size_t arithmetic.
  // ---------------------------------------------------------------------

  /** 2^64: size_t arithmetic is modulo this on an LP64 target. */
  const SizeModulus: nat := 0x1_0000_0000_0000_0000

  /** `(size + word_size - 1) / word_size` evaluated in size_t: the sum wraps before the division. */
  function WordsForAsWritten(bytes: nat): (words: nat)
    requires bytes < SizeModulus
    ensures words * WordSize < bytes + WordSize
    ensures words <= WordsFor(bytes)
  {
    ((bytes + WordSize - 1) % SizeModulus) / WordSize
  }

  /** The size_t rounding agrees with true rounding up exactly when the request is at most 2^64 − 8 bytes. */
  lemma WordsForAsWrittenAgreesBelowWrap(bytes: nat)
    requires bytes < SizeModulus
    ensures WordsForAsWritten(bytes) == WordsFor(bytes) <==> bytes <= SizeModulus - WordSize
  {
    if bytes > SizeModulus - WordSize {
      assert (bytes + WordSize - 1) % SizeModulus == bytes + WordSize - 1 - SizeModulus;
      assert WordsForAsWritten(bytes) == 0;
      assert WordsFor(bytes) > 0;
    }
  }

  /**
   * The largest request, SIZE_MAX bytes, rounds to 0 words, so the capacity
   * test passes even on a full region and a zero-word block is handed back.
   */
  lemma HugeRequestFitsAnywhere(r: Region)
    requires r.Valid() && r.capacity * WordSize < SizeModulus
    ensures WordsForAsWritten(SizeModulus - 1) == 0
    ensures r.size + WordsForAsWritten(SizeModulus - 1) <= r.capacity
    ensures !Fits(r, SizeModulus - 1)
  {
    assert (SizeModulus - 1 + WordSize - 1) % SizeModulus == WordSize - 2;
    assert WordsFor(SizeModulus - 1) * WordSize >= SizeModulus - 1;
  }

  // ---------------------------------------------------------------------
  // `nn_alloc`'s byte counts for the weight and bias arrays.
  // ---------------------------------------------------------------------

  /**
   * `sizeof(*nn.weights) * nn.arch_count - 1`: precedence makes this one
   * byte less than archCount elements, not archCount − 1 elements.
   * (elemSize is 32 for a Matrix and 16 for a Row on LP64.)
   */
  function ArrayBytesAsWritten(elemSize: nat, archCount: nat): (bytes: int)
    requires elemSize > 0 && archCount > 0
    ensures bytes >= 0
  {
    elemSize * archCount - 1
  }

  /** The intended byte count: one element per weight layer, archCount − 1 of them. */
  function ArrayBytes(elemSize: nat, archCount: nat): (bytes: nat)
    requires archCount > 0
    ensures bytes + elemSize == elemSize * archCount
  {
    assert elemSize * (archCount - 1) + elemSize == elemSize * archCount;
    elemSize * (archCount - 1)
  }

  /**
   * The as-written count exceeds the intended one by exactly elemSize − 1
   * bytes: the arrays are over-allocated, never short, and a network with
   * no weight layers still asks for elemSize − 1 bytes.
   */
  lemma ArrayBytesAsWrittenOverAllocates(elemSize: nat, archCount: nat)
    requires elemSize > 0 && archCount > 0
    ensures ArrayBytesAsWritten(elemSize, archCount) == ArrayBytes(elemSize, archCount) + elemSize - 1
    ensures ArrayBytesAsWritten(elemSize, archCount) >= ArrayBytes(elemSize, archCount)
    ensures archCount == 1 ==> ArrayBytes(elemSize, archCount) == 0 && ArrayBytesAsWritten(elemSize, archCount) == elemSize - 1
  {
  }

  // ---------------------------------------------------------------------
  // `nn_zero` and `nn_learn` loop to arch_count = n + 1.
  // ---------------------------------------------------------------------

  /** A network whose arrays have the lengths `nn_alloc` gives them, whatever their contents. */
  predicate Allocated(nn: Network) {
    |nn.arch| >= 1 && |nn.weights| == |nn.arch| - 1 && |nn.biases| == |nn.arch| - 1 && |nn.activations| == |nn.arch|
  }

  /**
   * The `nn_zero` loop from iteration i, as written: iteration i fills
   * weights[i], biases[i] and activations[i] for i < arch_count, then
   * activations[arch_count] is filled. An index past the end of its array is
   * an out-of-bounds access, modelled as None.
   */
  function ZeroLoopAsWritten(nn: Network, i: nat): (r: Option<Network>)
    requires i <= |nn.arch|
    decreases |nn.arch| - i
  {
    if i == |nn.arch| then
      if |nn.arch| < |nn.activations| then
        Some(nn.(activations := nn.activations[|nn.arch| := Constant(|nn.activations[|nn.arch|]|, 0.0)]))
      else None
    else if i < |nn.weights| && i < |nn.biases| && i < |nn.activations| then
      ZeroLoopAsWritten(nn.(
        weights := nn.weights[i := ZeroedMat(nn.weights[i])],
        biases := nn.biases[i := Constant(|nn.biases[i]|, 0.0)],
        activations := nn.activations[i := Constant(|nn.activations[i]|, 0.0)]), i + 1)
    else None
  }

  /** `nn_zero` as written in the C engine. */
  function NnZeroAsWritten(nn: Network): Option<Network> {
    ZeroLoopAsWritten(nn, 0)
  }

  /** From any iteration on, the as-written loop runs past the end of the weight array. */
  lemma {:induction false} ZeroLoopOverruns(nn: Network, i: nat)
    requires Allocated(nn) && i <= |nn.arch|
    ensures ZeroLoopAsWritten(nn, i) == None
    decreases |nn.arch| - i
  {
    if i < |nn.arch| && i < |nn.weights| {
      var next := nn.(
        weights := nn.weights[i := ZeroedMat(nn.weights[i])],
        biases := nn.biases[i := Constant(|nn.biases[i]|, 0.0)],
        activations := nn.activations[i := Constant(|nn.activations[i]|, 0.0)]);
      ZeroLoopOverruns(next, i + 1);
    }
  }

  /** On every network `nn_alloc` produces, `nn_zero` as written indexes out of bounds. */
  lemma NnZeroAsWrittenOverruns(nn: Network)
    requires Allocated(nn)
    ensures NnZeroAsWritten(nn) == None
  {
    ZeroLoopOverruns(nn, 0);
  }

  /**
   * The `nn_learn` loop from iteration i, as written: iteration i steps
   * weights[i] and biases[i] for i < arch_count; an index past the end of
   * either network's arrays is an out-of-bounds access, modelled as None.
   */
  function LearnLoopAsWritten(nn: Network, g: Network, rate: real, i: nat): (r: Option<Network>)
    requires i <= |nn.arch|
    decreases |nn.arch| - i
  {
    if i == |nn.arch| then Some(nn)
    else if i < |nn.weights| && i < |g.weights| && i < |nn.biases| && i < |g.biases| && StepFits(nn, g, i) then
      LearnLoopAsWritten(nn.(
        weights := nn.weights[i := StepMat(nn.weights[i], g.weights[i], rate)],
        biases := nn.biases[i := StepRow(nn.biases[i], g.biases[i], rate)]), g, rate, i + 1)
    else None
  }

  /** Layer i of the gradient has the shapes of layer i of the network, so every read of it is in bounds. */
  predicate StepFits(nn: Network, g: Network, i: nat)
    requires i < |nn.weights| && i < |g.weights| && i < |nn.biases| && i < |g.biases|
  {
    nn.weights[i].Valid() && g.weights[i].Valid() && SameShape(nn.weights[i], g.weights[i]) && |nn.biases[i]| == |g.biases[i]|
  }

  /** `nn_learn` as written in the C engine. */
  function LearnAsWritten(nn: Network, g: Network, rate: real): Option<Network> {
    LearnLoopAsWritten(nn, g, rate, 0)
  }

  /** From any iteration on, the as-written learning loop runs past the end of the weight array. */
  lemma {:induction false} LearnLoopOverruns(nn: Network, g: Network, rate: real, i: nat)
    requires Allocated(nn) && i < |nn.arch|
    ensures LearnLoopAsWritten(nn, g, rate, i) == None
    decreases |nn.arch| - i
  {
    if i < |nn.weights| && i < |g.weights| && i < |g.biases| && StepFits(nn, g, i) {
      var next := nn.(
        weights := nn.weights[i := StepMat(nn.weights[i], g.weights[i], rate)],
        biases := nn.biases[i := StepRow(nn.biases[i], g.biases[i], rate)]);
      LearnLoopOverruns(next, g, rate, i + 1);
    }
  }

  /** On every network `nn_alloc` produces, `nn_learn` as written indexes out of bounds, whatever the gradient. */
  lemma LearnAsWrittenOverruns(nn: Network, g: Network, rate: real)
    requires Allocated(nn)
    ensures LearnAsWritten(nn, g, rate) == None
  {
    LearnLoopOverruns(nn, g, rate, 0);
  }

  // ---------------------------------------------------------------------
  // `batch_process`'s view of its slice leaves the stride at 0.
  // ---------------------------------------------------------------------

  /**
   * The `batch_t` view `batch_process` builds: the designated initializer
   * omits `.stride`, so it is 0 and `MAT_AT(batch_t, i, j)` reads element j
   * of the first row for every i. Each of the view's rows is row `begin`.
   */
  function SubRowsAsWritten(t: Mat, begin: nat, size: nat): (s: Mat)
    requires t.Valid() && begin + size <= t.rows
    ensures s.Valid() && s.rows == size && s.cols == t.cols
    ensures forall k :: 0 <= k < size ==> s.cells[k] == t.cells[begin]
  {
    Mat(size, t.cols, seq(size, k requires 0 <= k < size => t.cells[begin]))
  }

  /** The stride-0 view is the slice of rows [begin, begin + size) exactly when those rows all equal row begin. */
  lemma BatchViewAgreesOnlyOnRepeatedRows(t: Mat, begin: nat, size: nat)
    requires t.Valid() && begin + size <= t.rows
    ensures SubRowsAsWritten(t, begin, size) == SubRows(t, begin, size)
            <==> forall j :: begin <= j < begin + size ==> t.cells[j] == t.cells[begin]
  {
    var v, s := SubRowsAsWritten(t, begin, size), SubRows(t, begin, size);
    if forall j :: begin <= j < begin + size ==> t.cells[j] == t.cells[begin] {
      assert v.cells == s.cells;
    } else {
      var j :| begin <= j < begin + size && t.cells[j] != t.cells[begin];
      assert v.cells[j - begin] != s.cells[j - begin];
    }
  }

  /**
   * A 4-row table trained in batches of 2: the first call's view holds row 0
   * twice, where the slice it stands for holds rows 0 and 1.
   */
  lemma FirstBatchRepeatsRowZero()
    ensures var t := Mat(4, 1, [[0.0], [1.0], [2.0], [3.0]]);
      && t.Valid()
      && SubRowsAsWritten(t, 0, 2).cells == [[0.0], [0.0]]
      && SubRows(t, 0, 2).cells == [[0.0], [1.0]]
  {
    var t := Mat(4, 1, [[0.0], [1.0], [2.0], [3.0]]);
    assert SubRowsAsWritten(t, 0, 2).cells == [[0.0], [0.0]];
  }

  // ---------------------------------------------------------------------
  // `NN_OUTPUT(nn)` indexes activations[arch_count] = activations[n + 1].
  // ---------------------------------------------------------------------

  /** `NN_OUTPUT(nn)` as written: the activation row at index arch_count, None when that is past the end. */
  function OutputAsWritten(nn: Network): Option<Row> {
    if |nn.arch| < |nn.activations| then Some(nn.activations[|nn.arch|]) else None
  }

  /**
   * The output-delta loop of `nn_backprop` as written: row j of
   * NN_OUTPUT(gradient) becomes NN_OUTPUT(nn)[j] − out[j]. Either access
   * out of bounds is None.
   */
  function OutputDeltaAsWritten(g: Network, f: Network, y: Row): Option<Network> {
    match (OutputAsWritten(g), OutputAsWritten(f))
    case (Some(_), Some(o)) =>
      if |y| <= |o| then
        Some(g.(activations := g.activations[|g.arch| := seq(|y|, j requires 0 <= j < |y| => o[j] - y[j])]))
      else None
    case _ => None
  }

  /**
   * On every network `nn_alloc` creates, NN_OUTPUT is one past the end of
   * the activation array, so the output-delta write of `nn_backprop` (and
   * every read of the output in `nn_cost`) goes out of bounds.
   */
  lemma OutputAsWrittenOverruns(g: Network, f: Network, y: Row)
    requires Allocated(g) && Allocated(f)
    ensures OutputAsWritten(g) == None && OutputAsWritten(f) == None
    ensures OutputDeltaAsWritten(g, f, y) == None
  {
  }
}

=== FILE: backprop.dfy ===
/**
 * `nn_backprop`: the hand-derived gradient of the cost over a training table.
 *
 * For each table row the input part is copied into the network's input
 * buffer and a forward pass runs; the output delta is output − target, and
 * the deltas are pushed back layer by layer from n down to 1:
 *
 *   e_l[j]        = s · δ_l[j] · df(a_l[j])            (s = 2)
 *   ∇b_{l−1}[j]  += e_l[j]
 *   ∇W_{l−1}[k,j] += e_l[j] · a_{l−1}[k]
 *   δ_{l−1}[k]    = Σ_j e_l[j] · W_{l−1}[k,j]
 *
 * The gradient starts as a freshly allocated, zeroed network; the weight and
 * bias entries are summed over the rows and finally divided by the row count,
 * while the gradient's activation rows keep the deltas of the last row. The
 * network's weights and biases are only read; its activation buffers end up
 * holding the forward pass of the last row.
 *
 * `df` is the derivative in terms of the activation's output (the
 * `activationdf` table of the Activations module is one such function).
 */
module Backprop {
  import opened Matrices
  import opened Networks

  /** The factor `s` of the source: the derivative of the square in (out − target)². */
  const Scale: real := 2.0

  /** The error signal of a layer, s · δ[j] · df(a[j]) for every cell j. */
  function Signal(delta: Row, a: Row, df: real -> real): (e: Row)
    requires |delta| == |a|
    ensures |e| == |a|
  {
    seq(|a|, j requires 0 <= j < |a| => Scale * delta[j] * df(a[j]))
  }

  /** A vanishing delta gives a vanishing signal, whatever the derivative. */
  lemma SignalOfZero(delta: Row, a: Row, df: real -> real)
    requires |delta| == |a|
    requires forall j :: 0 <= j < |delta| ==> delta[j] == 0.0
    ensures forall j :: 0 <= j < |a| ==> Signal(delta, a, df)[j] == 0.0
  {
  }

  /** The delta of the previous layer, Σ_j e[j] · W[k,j] for every row k of W. */
  function BackRow(w: Mat, e: Row): (d: Row)
    requires w.Valid() && |e| == w.cols
    ensures |d| == w.rows
  {
    seq(w.rows, k requires 0 <= k < w.rows => Dot(w.cells[k], e))
  }

  /** A vanishing signal propagates back as a vanishing delta. */
  lemma BackRowOfZero(w: Mat, e: Row)
    requires w.Valid() && |e| == w.cols
    requires forall j :: 0 <= j < |e| ==> e[j] == 0.0
    ensures forall k :: 0 <= k < w.rows ==> BackRow(w, e)[k] == 0.0
  {
    forall k | 0 <= k < w.rows
      ensures BackRow(w, e)[k] == 0.0
    {
      DotZeroRight(w.cells[k], e);
    }
  }

  /**
   * δ_l for the forward-passed network `f` and target `y`: the output delta
   * a_n − y at l = n, and below it the delta pushed back through W_l.
   */
  function Delta(f: Network, y: Row, df: real -> real, l: nat): (d: Row)
    requires f.Valid() && |y| == f.OutputWidth() && l <= f.Layers()
    ensures |d| == f.arch[l]
    decreases f.Layers() - l
  {
    if l == f.Layers() then
      seq(|y|, j requires 0 <= j < |y| => f.Output()[j] - y[j])
    else
      BackRow(f.weights[l], Signal(Delta(f, y, df, l + 1), f.activations[l + 1], df))
  }

  /** The signal e_{l+1} that feeds the gradient of layer l. */
  function LayerSignal(f: Network, y: Row, df: real -> real, l: nat): (e: Row)
    requires f.Valid() && |y| == f.OutputWidth() && l < f.Layers()
    ensures |e| == f.arch[l + 1]
  {
    Signal(Delta(f, y, df, l + 1), f.activations[l + 1], df)
  }

  /** The contribution of one table row: ∇W_l[k,j] = e_{l+1}[j] · a_l[k], ∇b_l = e_{l+1}, and the deltas. */
  function SampleGradient(f: Network, y: Row, df: real -> real): (g: Network)
    requires f.Valid() && |y| == f.OutputWidth()
    ensures g.Valid() && g.arch == f.arch
  {
    Network(
      f.arch,
      seq(f.Layers(), l requires 0 <= l < f.Layers() =>
        Mat(f.arch[l], f.arch[l + 1], seq(f.arch[l], k requires 0 <= k < f.arch[l] =>
          seq(f.arch[l + 1], j requires 0 <= j < f.arch[l + 1] =>
            LayerSignal(f, y, df, l)[j] * f.activations[l][k])))),
      seq(f.Layers(), l requires 0 <= l < f.Layers() => LayerSignal(f, y, df, l)),
      seq(|f.arch|, l requires 0 <= l < |f.arch| => Delta(f, y, df, l)))
  }

  /** Adds a row's contribution: weights and biases are summed, the activation rows are the row's deltas. */
  function AddSample(g: Network, s: Network): (r: Network)
    requires g.Valid() && s.Valid() && s.arch == g.arch
    ensures r.Valid() && r.arch == g.arch && r.activations == s.activations
  {
    g.(
      weights := seq(|g.weights|, l requires 0 <= l < |g.weights| =>
        Mat(g.weights[l].rows, g.weights[l].cols, seq(g.weights[l].rows, k requires 0 <= k < g.weights[l].rows =>
          seq(g.weights[l].cols, j requires 0 <= j < g.weights[l].cols =>
            g.weights[l].cells[k][j] + s.weights[l].cells[k][j])))),
      biases := seq(|g.biases|, l requires 0 <= l < |g.biases| =>
        seq(|g.biases[l]|, j requires 0 <= j < |g.biases[l]| => g.biases[l][j] + s.biases[l][j])),
      activations := s.activations)
  }

  /** Divides every weight and bias entry by n; the activation rows are kept. */
  function Averaged(g: Network, n: nat): (r: Network)
    requires g.Valid() && n > 0
    ensures r.Valid() && r.arch == g.arch && r.activations == g.activations
  {
    g.(
      weights := seq(|g.weights|, l requires 0 <= l < |g.weights| =>
        Mat(g.weights[l].rows, g.weights[l].cols, seq(g.weights[l].rows, k requires 0 <= k < g.weights[l].rows =>
          seq(g.weights[l].cols, j requires 0 <= j < g.weights[l].cols =>
            g.weights[l].cells[k][j] / (n as real))))),
      biases := seq(|g.biases|, l requires 0 <= l < |g.biases| =>
        seq(|g.biases[l]|, j requires 0 <= j < |g.biases[l]| => g.biases[l][j] / (n as real))))
  }

  /** The gradient accumulated so far, and the network whose buffers the forward passes wrote. */
  datatype Pass = Pass(gradient: Network, net: Network)

  /** A pass state fit for network nn: both networks have nn's architecture and the net has nn's parameters. */
  predicate FitPass(p: Pass, nn: Network)
    requires nn.Valid()
  {
    && p.gradient.Valid() && p.gradient.arch == nn.arch
    && p.net.Valid() && p.net.arch == nn.arch && p.net.weights == nn.weights && p.net.biases == nn.biases
  }

  /**
   * One row of the sample loop: the row's input is loaded into the network
   * as it stands, the forward pass runs, and the row's contribution is added
   * to the gradient.
   */
  function RowPass(p: Pass, nn: Network, row: Row, act: real -> real, df: real -> real): (q: Pass)
    requires nn.Valid() && FitPass(p, nn)
    requires |row| == nn.InputWidth() + nn.OutputWidth() && nn.OutputWidth() > 0
    ensures FitPass(q, nn)
  {
    var f := Forward(Load(p.net, InputPart(nn, row)), act);
    Pass(AddSample(p.gradient, SampleGradient(f, TargetPart(nn, row), df)), f)
  }

  /** The state `nn_backprop` starts from: a freshly allocated gradient, zeroed, and nn as it stands. */
  function Start(nn: Network, junk: real): (p: Pass)
    requires nn.Valid()
    ensures FitPass(p, nn) && p.net == nn && ZeroParams(p.gradient)
  {
    Pass(NnZero(NnAlloc(nn.arch, junk)), nn)
  }

  /** The state after the first m rows of the table, starting from `start`. */
  function Accumulate(nn: Network, t: Mat, act: real -> real, df: real -> real, start: Pass, m: nat): (p: Pass)
    requires nn.Valid() && TableFits(nn, t) && FitPass(start, nn) && m <= t.rows
    ensures FitPass(p, nn)
    decreases m
  {
    if m == 0 then start
    else RowPass(Accumulate(nn, t, act, df, start, m - 1), nn, t.cells[m - 1], act, df)
  }

  /** `avg` is `sum` divided by n: multiplying each weight and bias entry of `avg` back by n gives `sum`'s. */
  predicate IsAverage(avg: Network, sum: Network, n: nat)
    requires avg.Valid() && sum.Valid() && avg.arch == sum.arch
  {
    && (forall l, k, j :: 0 <= l < |sum.weights| && 0 <= k < sum.weights[l].rows && 0 <= j < sum.weights[l].cols ==>
          avg.weights[l].cells[k][j] * (n as real) == sum.weights[l].cells[k][j])
    && (forall l, j :: 0 <= l < |sum.biases| && 0 <= j < |sum.biases[l]| ==>
          avg.biases[l][j] * (n as real) == sum.biases[l][j])
  }

  /** Dividing by a positive count n and multiplying back by n is the identity. */
  lemma DivThenMul(x: real, n: nat)
    requires n > 0
    ensures (x / (n as real)) * (n as real) == x
  {
  }

  /** Entry by entry, averaging divides by n. */
  lemma AveragedEntries(g: Network, n: nat)
    requires g.Valid() && n > 0
    ensures forall l, k, j :: 0 <= l < |g.weights| && 0 <= k < g.weights[l].rows && 0 <= j < g.weights[l].cols ==>
      Averaged(g, n).weights[l].cells[k][j] == g.weights[l].cells[k][j] / (n as real)
    ensures forall l, j :: 0 <= l < |g.biases| && 0 <= j < |g.biases[l]| ==>
      Averaged(g, n).biases[l][j] == g.biases[l][j] / (n as real)
  {
  }

  /** Multiplying every entry of an all-entries quotient by n gives back the dividends. */
  lemma QuotientsUndone(avg: Network, g: Network, n: nat)
    requires avg.Valid() && g.Valid() && avg.arch == g.arch && n > 0
    requires forall l, k, j :: 0 <= l < |g.weights| && 0 <= k < g.weights[l].rows && 0 <= j < g.weights[l].cols ==>
      avg.weights[l].cells[k][j] == g.weights[l].cells[k][j] / (n as real)
    requires forall l, j :: 0 <= l < |g.biases| && 0 <= j < |g.biases[l]| ==>
      avg.biases[l][j] == g.biases[l][j] / (n as real)
    ensures IsAverage(avg, g, n)
  {
    forall l, k, j | 0 <= l < |g.weights| && 0 <= k < g.weights[l].rows && 0 <= j < g.weights[l].cols
      ensures avg.weights[l].cells[k][j] * (n as real) == g.weights[l].cells[k][j]
    {
      DivThenMul(g.weights[l].cells[k][j], n);
    }
    forall l, j | 0 <= l < |g.biases| && 0 <= j < |g.biases[l]|
      ensures avg.biases[l][j] * (n as real) == g.biases[l][j]
    {
      DivThenMul(g.biases[l][j], n);
    }
  }

  /** Averaging is undone by multiplying back by n. */
  lemma AveragedUndone(g: Network, n: nat)
    requires g.Valid() && n > 0
    ensures IsAverage(Averaged(g, n), g, n)
  {
    AveragedEntries(g, n);
    QuotientsUndone(Averaged(g, n), g, n);
  }

  /** The average of a zero gradient is zero. */
  lemma AveragedOfZero(g: Network, n: nat)
    requires g.Valid() && n > 0 && ZeroParams(g)
    ensures ZeroParams(Averaged(g, n))
  {
    var r := Averaged(g, n);
    AveragedEntries(g, n);
    assert forall l, k, j :: 0 <= l < |r.weights| && 0 <= k < r.weights[l].rows && 0 <= j < r.weights[l].cols ==>
      r.weights[l].cells[k][j] == 0.0 / (n as real);
    assert forall l, j :: 0 <= l < |r.biases| && 0 <= j < |r.biases[l]| ==> r.biases[l][j] == 0.0 / (n as real);
  }

  /** The gradient's output row holds the output delta: the network's output minus the target y. */
  predicate HoldsOutputDelta(g: Network, f: Network, y: Row)
    requires g.Valid() && f.Valid() && g.arch == f.arch && |y| == f.OutputWidth()
  {
    forall j :: 0 <= j < |y| ==> g.Output()[j] == f.Output()[j] - y[j]
  }

  /** The row pass leaves the output delta output − target in the gradient's output row. */
  lemma RowPassOutputDelta(p: Pass, nn: Network, row: Row, act: real -> real, df: real -> real)
    requires nn.Valid() && FitPass(p, nn)
    requires |row| == nn.InputWidth() + nn.OutputWidth() && nn.OutputWidth() > 0
    ensures var q := RowPass(p, nn, row, act, df);
      HoldsOutputDelta(q.gradient, q.net, TargetPart(nn, row))
  {
  }

  /**
   * After m > 0 rows the network holds the forward pass of row m − 1 loaded
   * into nn itself (what the buffers held from the previous row does not
   * matter), and the gradient's output row holds that row's output delta.
   */
  lemma LastPassIsFresh(nn: Network, t: Mat, act: real -> real, df: real -> real, start: Pass, m: nat)
    requires nn.Valid() && TableFits(nn, t) && FitPass(start, nn) && 0 < m <= t.rows
    ensures var p := Accumulate(nn, t, act, df, start, m);
      && p.net == Forward(Load(nn, InputPart(nn, t.cells[m - 1])), act)
      && HoldsOutputDelta(p.gradient, p.net, TargetPart(nn, t.cells[m - 1]))
  {
    var p := Accumulate(nn, t, act, df, start, m - 1);
    var x := InputPart(nn, t.cells[m - 1]);
    ForwardIgnoresStaleActivations(Load(p.net, x), Load(nn, x), act);
    RowPassOutputDelta(p, nn, t.cells[m - 1], act, df);
  }

  /** The last step of `nn_backprop`: the summed weights and biases are divided by the row count n. */
  function Finish(p: Pass, nn: Network, n: nat): (r: Pass)
    requires nn.Valid() && FitPass(p, nn) && n > 0
    ensures FitPass(r, nn) && r.net == p.net
    ensures IsAverage(r.gradient, p.gradient, n)
    ensures forall y: Row :: |y| == nn.OutputWidth() && HoldsOutputDelta(p.gradient, p.net, y) ==>
      HoldsOutputDelta(r.gradient, r.net, y)
  {
    AveragedUndone(p.gradient, n);
    Pass(Averaged(p.gradient, n), p.net)
  }

  /**
   * `nn_backprop(r, nn, t)`: needs t.cols == L0 + Ln. The gradient has nn's
   * architecture; its weights and biases are the sums accumulated over the
   * rows divided by the row count; its output row is the last row's
   * output − target. The network's parameters are unchanged and its buffers
   * hold the last row's forward pass.
   */
  function Backprop(nn: Network, t: Mat, act: real -> real, df: real -> real, junk: real): (r: Pass)
    requires nn.Valid() && TableFits(nn, t) && t.rows > 0
    ensures FitPass(r, nn)
    ensures r.net == Forward(Load(nn, InputPart(nn, t.cells[t.rows - 1])), act)
    ensures HoldsOutputDelta(r.gradient, r.net, TargetPart(nn, t.cells[t.rows - 1]))
    ensures IsAverage(r.gradient, Accumulate(nn, t, act, df, Start(nn, junk), t.rows).gradient, t.rows)
  {
    LastPassIsFresh(nn, t, act, df, Start(nn, junk), t.rows);
    Finish(Accumulate(nn, t, act, df, Start(nn, junk), t.rows), nn, t.rows)
  }

  /** The whole result of backprop is independent of what the freshly allocated storage held: it is zeroed first. */
  lemma BackpropIgnoresJunk(nn: Network, t: Mat, act: real -> real, df: real -> real, junk1: real, junk2: real)
    requires nn.Valid() && TableFits(nn, t) && t.rows > 0
    ensures Backprop(nn, t, act, df, junk1) == Backprop(nn, t, act, df, junk2)
  {
    ZeroForgetsContents(NnAlloc(nn.arch, junk1), junk2);
    assert Start(nn, junk1) == Start(nn, junk2);
  }

  /** When the output already equals the target, every delta vanishes, down to the input layer. */
  lemma {:induction false} DeltaOfExactOutput(f: Network, y: Row, df: real -> real, l: nat)
    requires f.Valid() && |y| == f.OutputWidth() && l <= f.Layers()
    requires f.Output() == y
    ensures forall k :: 0 <= k < f.arch[l] ==> Delta(f, y, df, l)[k] == 0.0
    decreases f.Layers() - l
  {
    if l < f.Layers() {
      DeltaOfExactOutput(f, y, df, l + 1);
      var e := Signal(Delta(f, y, df, l + 1), f.activations[l + 1], df);
      SignalOfZero(Delta(f, y, df, l + 1), f.activations[l + 1], df);
      BackRowOfZero(f.weights[l], e);
    }
  }

  /** A gradient whose every weight and bias entry is 0. */
  predicate ZeroParams(g: Network)
    requires g.Valid()
  {
    && (forall l, k, j :: 0 <= l < |g.weights| && 0 <= k < g.weights[l].rows && 0 <= j < g.weights[l].cols ==>
          g.weights[l].cells[k][j] == 0.0)
    && (forall l, j :: 0 <= l < |g.biases| && 0 <= j < |g.biases[l]| ==> g.biases[l][j] == 0.0)
  }

  /** Hence a row the network already reproduces contributes nothing to any weight or bias. */
  lemma SampleGradientOfExactOutput(f: Network, y: Row, df: real -> real)
    requires f.Valid() && |y| == f.OutputWidth() && f.Output() == y
    ensures ZeroParams(SampleGradient(f, y, df))
  {
    forall l | 0 <= l < f.Layers()
      ensures forall j :: 0 <= j < f.arch[l + 1] ==> LayerSignal(f, y, df, l)[j] == 0.0
    {
      DeltaOfExactOutput(f, y, df, l + 1);
      SignalOfZero(Delta(f, y, df, l + 1), f.activations[l + 1], df);
    }
  }

  /** Adding a zero contribution to a zero gradient leaves it zero. */
  lemma AddSampleOfZeros(g: Network, s: Network)
    requires g.Valid() && s.Valid() && s.arch == g.arch && ZeroParams(g) && ZeroParams(s)
    ensures ZeroParams(AddSample(g, s))
  {
  }

  /** A row the network reproduces leaves a zero weight and bias gradient zero. */
  lemma RowPassOfReproduced(p: Pass, nn: Network, row: Row, act: real -> real, df: real -> real)
    requires nn.Valid() && FitPass(p, nn) && ZeroParams(p.gradient)
    requires |row| == nn.InputWidth() + nn.OutputWidth() && nn.OutputWidth() > 0
    requires Reproduces(nn, row, act)
    ensures ZeroParams(RowPass(p, nn, row, act, df).gradient)
  {
    var x := InputPart(nn, row);
    var f := Forward(Load(p.net, x), act);
    ForwardIgnoresStaleActivations(Load(p.net, x), Load(nn, x), act);
    assert f.Output() == TargetPart(nn, row);
    SampleGradientOfExactOutput(f, TargetPart(nn, row), df);
    AddSampleOfZeros(p.gradient, SampleGradient(f, TargetPart(nn, row), df));
  }

  /** The network reproduces the first m rows of the table. */
  predicate ReproducesFirst(nn: Network, t: Mat, act: real -> real, m: nat)
    requires nn.Valid() && TableFits(nn, t) && m <= t.rows
    decreases m
  {
    m == 0 || (ReproducesFirst(nn, t, act, m - 1) && Reproduces(nn, t.cells[m - 1], act))
  }

  /** Reproducing each of the first m rows is reproducing the first m rows. */
  lemma {:induction false} ReproducesFirstOfAll(nn: Network, t: Mat, act: real -> real, m: nat)
    requires nn.Valid() && TableFits(nn, t) && m <= t.rows
    requires forall r :: 0 <= r < m ==> Reproduces(nn, t.cells[r], act)
    ensures ReproducesFirst(nn, t, act, m)
    decreases m
  {
    if m > 0 {
      ReproducesFirstOfAll(nn, t, act, m - 1);
    }
  }

  /** Starting from a zero gradient, rows the network reproduces keep it zero. */
  lemma {:induction false} AccumulateOfReproduced(nn: Network, t: Mat, act: real -> real, df: real -> real,
                                                  start: Pass, m: nat)
    requires nn.Valid() && TableFits(nn, t) && FitPass(start, nn) && ZeroParams(start.gradient) && m <= t.rows
    requires ReproducesFirst(nn, t, act, m)
    ensures ZeroParams(Accumulate(nn, t, act, df, start, m).gradient)
    decreases m
  {
    if m > 0 {
      AccumulateOfReproduced(nn, t, act, df, start, m - 1);
      RowPassOfReproduced(Accumulate(nn, t, act, df, start, m - 1), nn, t.cells[m - 1], act, df);
    }
  }

  /** A network that already reproduces every row of the table gets an all-zero gradient: learning leaves it be. */
  lemma BackpropOfReproduced(nn: Network, t: Mat, act: real -> real, df: real -> real, junk: real)
    requires nn.Valid() && TableFits(nn, t) && t.rows > 0
    requires forall r :: 0 <= r < t.rows ==> Reproduces(nn, t.cells[r], act)
    ensures ZeroParams(Backprop(nn, t, act, df, junk).gradient)
  {
    var start := Start(nn, junk);
    ReproducesFirstOfAll(nn, t, act, t.rows);
    AccumulateOfReproduced(nn, t, act, df, start, t.rows);
    AveragedOfZero(Accumulate(nn, t, act, df, start, t.rows).gradient, t.rows);
    assert Backprop(nn, t, act, df, junk) == Finish(Accumulate(nn, t, act, df, start, t.rows), nn, t.rows);
  }
}

=== FILE: batches.dfy ===
/**
 * `batch_process`: one call trains the network on the next contiguous
 * mini-batch of the table. A `Batch` remembers where the next slice begins,
 * the cost summed over the slices of the current epoch, and whether the
 * epoch is over. A call on a finished batch first starts a new epoch.
 *
 * The region the gradient is allocated from is not modelled: every call is
 * given the stale value `junk` of fresh storage, which backprop ignores.
 */
module Batches {
  import opened Matrices
  import opened Networks
  import opened Backprop

  /** The state kept between calls: next slice start, running cost, end-of-epoch flag. */
  datatype Batch = Batch(begin: nat, cost: real, finished: bool)

  /** The part of the state that decides which rows are used: the slice start and the flag. */
  datatype Cursor = Cursor(begin: nat, finished: bool)

  /** The result of one call: the batch state, the trained network, and the slice cost it accounted. */
  datatype Outcome = Outcome(batch: Batch, net: Network, sliceCost: real)

  function CursorOf(b: Batch): Cursor {
    Cursor(b.begin, b.finished)
  }

  /** A state reachable between calls for a table of `rows` rows: an unfinished epoch has rows left. */
  predicate ValidCursor(c: Cursor, rows: nat) {
    !c.finished ==> c.begin < rows
  }

  /** The state a call works from: a finished batch starts over at row 0 with cost 0. */
  function Restart(b: Batch): (b': Batch)
    ensures !b'.finished
    ensures b.finished ==> b' == Batch(0, 0.0, false)
    ensures !b.finished ==> b' == b
  {
    if b.finished then Batch(0, 0.0, false) else b
  }

  /** The running cost once a slice's cost is added to the cost of the restarted batch. */
  function Accrued(b: Batch, sliceCost: real): real {
    Restart(b).cost + sliceCost
  }

  /** The slice length: batchSize rows, or the rows that are left when fewer remain. */
  function SliceSize(begin: nat, batchSize: nat, rows: nat): (size: nat)
    requires begin < rows && batchSize > 0
    ensures 0 < size <= batchSize && begin + size <= rows
    ensures size == batchSize || begin + size == rows
    ensures begin + batchSize < rows ==> size == batchSize
  {
    if begin + batchSize >= rows then rows - begin else batchSize
  }

  /** ⌈rows / batchSize⌉, the number of slices in an epoch, as the integer expression of the source. */
  function BatchCount(rows: nat, batchSize: nat): (count: nat)
    requires batchSize > 0
    ensures rows > 0 ==> count > 0
  {
    (rows + batchSize - 1) / batchSize
  }

  /** The slice count is the least count whose slices reach past the last row. */
  lemma BatchCountIsCeiling(rows: nat, batchSize: nat)
    requires rows > 0 && batchSize > 0
    ensures BatchCount(rows, batchSize) >= 1
    ensures BatchCount(rows, batchSize) * batchSize >= rows
    ensures (BatchCount(rows, batchSize) - 1) * batchSize < rows
  {
    var n := rows + batchSize - 1;
    var q := n / batchSize;
    assert n == q * batchSize + n % batchSize;
    MulSucc(q - 1, batchSize);
  }

  /** (k + 1)·m = k·m + m. */
  lemma MulSucc(k: int, m: int)
    ensures (k + 1) * m == k * m + m
  {
  }

  /** Multiplication by a natural number is monotone. */
  lemma {:induction false} MulMonotone(a: nat, b: nat, m: nat)
    requires a <= b
    ensures a * m <= b * m
    decreases b - a
  {
    if a < b {
      MulMonotone(a, b - 1, m);
      MulSucc(b - 1, m);
    }
  }

  /** The bookkeeping of one call: restart if finished, move past the slice, finish once past the last row. */
  function Advance(c: Cursor, batchSize: nat, rows: nat): (c': Cursor)
    requires batchSize > 0
    ensures c'.begin == (if c.finished then 0 else c.begin) + batchSize
    ensures c'.finished <==> c'.begin >= rows
    ensures ValidCursor(c', rows)
  {
    var begin := (if c.finished then 0 else c.begin) + batchSize;
    Cursor(begin, begin >= rows)
  }

  /**
   * The bookkeeping half of `batch_process`, given the cost of the trained
   * network on the slice: the cost is added to the running cost, begin moves
   * on by batch_size, and once begin reaches the end of the table the running
   * cost is divided by the slice count and the epoch is finished.
   */
  function Account(b: Batch, batchSize: nat, rows: nat, sliceCost: real): (b': Batch)
    requires rows > 0 && batchSize > 0
    ensures CursorOf(b') == Advance(CursorOf(b), batchSize, rows)
    ensures b'.finished ==> b'.cost == Mean(Accrued(b, sliceCost), BatchCount(rows, batchSize))
    ensures !b'.finished ==> b'.cost == Accrued(b, sliceCost)
    ensures b.cost >= 0.0 && sliceCost >= 0.0 ==> b'.cost >= 0.0
  {
    var b0 := Restart(b);
    var cost := b0.cost + sliceCost;
    var begin := b0.begin + batchSize;
    if begin >= rows then
      BatchCountIsCeiling(rows, batchSize);
      Batch(begin, Mean(cost, BatchCount(rows, batchSize)), true)
    else
      Batch(begin, cost, false)
  }

  /** The training half of `batch_process`: one backprop on the slice, then one learning step. */
  function TrainOn(nn: Network, slice: Mat, rate: real, act: real -> real, df: real -> real, junk: real): (l: Network)
    requires nn.Valid() && TableFits(nn, slice) && slice.rows > 0
    ensures l.Valid() && l.arch == nn.arch
  {
    var bp := Backprop.Backprop(nn, slice, act, df, junk);
    assert bp.net.arch == nn.arch && bp.gradient.arch == nn.arch;
    Learn(bp.net, bp.gradient, rate)
  }

  /** Whether a table fits a network depends on its architecture only. */
  lemma FitsSameArch(a: Network, b: Network, t: Mat)
    requires a.Valid() && b.Valid() && a.arch == b.arch && TableFits(a, t)
    ensures TableFits(b, t)
  {
  }

  /**
   * `batch_process(r, b, batch_size, nn, t, rate)`: needs batch_size > 0
   * and a non-empty table. The slice is rows [begin, begin + size) of the
   * table, after restarting a finished batch; the network is trained on it;
   * the cost of the TRAINED network on the slice is accounted.
   */
  function Process(b: Batch, batchSize: nat, nn: Network, t: Mat, rate: real,
                   act: real -> real, df: real -> real, junk: real): (r: Outcome)
    requires nn.Valid() && TableFits(nn, t) && t.rows > 0 && batchSize > 0
    requires ValidCursor(CursorOf(b), t.rows)
    ensures r.net.Valid() && r.net.arch == nn.arch
    ensures var start := Restart(b).begin;
      var slice := SubRows(t, start, SliceSize(start, batchSize, t.rows));
      && TableFits(nn, slice)
      && r.net == TrainOn(nn, slice, rate, act, df, junk)
      && r.sliceCost == Cost(r.net, slice, act)
    ensures r.batch.begin == Restart(b).begin + batchSize
    ensures r.batch.finished <==> r.batch.begin >= t.rows
    ensures !r.batch.finished ==> r.batch.cost == Accrued(b, r.sliceCost)
    ensures r.batch.finished ==> r.batch.cost == Mean(Accrued(b, r.sliceCost), BatchCount(t.rows, batchSize))
  {
    var start := Restart(b).begin;
    var slice := SubRows(t, start, SliceSize(start, batchSize, t.rows));
    var net := TrainOn(nn, slice, rate, act, df, junk);
    FitsSameArch(nn, net, slice);
    var cost := Cost(net, slice, act);
    var acc := Account(b, batchSize, t.rows, cost);
    AccountMoves(b, batchSize, t.rows, cost);
    Outcome(acc, net, cost)
  }

  /** The summed cost of an epoch divided by its slice count: scaled back up it is the sum, and keeps its sign. */
  function Mean(sum: real, count: nat): (m: real)
    requires count > 0
    ensures m * (count as real) == sum
    ensures sum >= 0.0 ==> m >= 0.0
  {
    sum / (count as real)
  }

  /** The bookkeeping after k calls. */
  function AdvanceN(c: Cursor, batchSize: nat, rows: nat, k: nat): Cursor
    requires batchSize > 0
    decreases k
  {
    if k == 0 then c else Advance(AdvanceN(c, batchSize, rows, k - 1), batchSize, rows)
  }

  /** The state between epochs: either finished, or fresh at row 0. */
  predicate EpochStart(c: Cursor) {
    c.finished || c.begin == 0
  }

  /**
   * From the start of an epoch, call k (counting from 1) moves begin to
   * k·batch_size, and the epoch is finished after exactly ⌈rows/batch_size⌉
   * calls, not one earlier.
   */
  lemma {:induction false} EpochProgress(c: Cursor, batchSize: nat, rows: nat, k: nat)
    requires batchSize > 0 && rows > 0 && EpochStart(c)
    requires 1 <= k <= BatchCount(rows, batchSize)
    ensures AdvanceN(c, batchSize, rows, k) == Cursor(k * batchSize, k == BatchCount(rows, batchSize))
    decreases k
  {
    var count := BatchCount(rows, batchSize);
    BatchCountIsCeiling(rows, batchSize);
    if k > 1 {
      EpochProgress(c, batchSize, rows, k - 1);
      MulSucc(k - 1, batchSize);
    }
    if k < count {
      MulMonotone(k, count - 1, batchSize);
    }
  }

  /** An epoch takes exactly ⌈rows/batch_size⌉ calls: finished then, unfinished before. */
  lemma EpochLength(c: Cursor, batchSize: nat, rows: nat)
    requires batchSize > 0 && rows > 0 && EpochStart(c)
    ensures AdvanceN(c, batchSize, rows, BatchCount(rows, batchSize)).finished
    ensures forall k :: 1 <= k < BatchCount(rows, batchSize) ==> !AdvanceN(c, batchSize, rows, k).finished
  {
    BatchCountIsCeiling(rows, batchSize);
    EpochProgress(c, batchSize, rows, BatchCount(rows, batchSize));
    forall k | 1 <= k < BatchCount(rows, batchSize)
      ensures !AdvanceN(c, batchSize, rows, k).finished
    {
      EpochProgress(c, batchSize, rows, k);
    }
  }

  /** With batch_size >= rows, a single call covers the table and finishes the epoch. */
  lemma OneCallWhenBatchCoversTable(c: Cursor, batchSize: nat, rows: nat)
    requires rows > 0 && batchSize >= rows && EpochStart(c)
    ensures BatchCount(rows, batchSize) == 1
    ensures Advance(c, batchSize, rows).finished
    ensures SliceSize(0, batchSize, rows) == rows
  {
    BatchCountIsCeiling(rows, batchSize);
    var count := BatchCount(rows, batchSize);
    if count > 1 {
      MulMonotone(1, count - 1, batchSize);
    }
  }

  /** Row r lies in the slice of call k (counting from 0) of an epoch. */
  predicate InSlice(r: nat, k: nat, batchSize: nat, rows: nat)
    requires batchSize > 0 && k * batchSize < rows
  {
    k * batchSize <= r < k * batchSize + SliceSize(k * batchSize, batchSize, rows)
  }

  /** Every row of the table lies in the slice of exactly one call of the epoch. */
  lemma SlicesPartitionTable(r: nat, batchSize: nat, rows: nat)
    requires batchSize > 0 && r < rows
    ensures var k := r / batchSize;
      && k < BatchCount(rows, batchSize) && k * batchSize < rows && InSlice(r, k, batchSize, rows)
    ensures forall k: nat :: k * batchSize < rows && InSlice(r, k, batchSize, rows) ==> k == r / batchSize
  {
    var q := r / batchSize;
    assert r == q * batchSize + r % batchSize;
    MulSucc(q, batchSize);
    BatchCountIsCeiling(rows, batchSize);
    var count := BatchCount(rows, batchSize);
    if q >= count {
      MulMonotone(count, q, batchSize);
    }
    forall k: nat | k * batchSize < rows && InSlice(r, k, batchSize, rows)
      ensures k == q
    {
      MulSucc(k, batchSize);
      if k < q {
        MulMonotone(k + 1, q, batchSize);
      } else if k > q {
        MulMonotone(q + 1, k, batchSize);
      }
    }
  }

  /** The bookkeeping of a run of calls whose slices cost `costs`, in order. */
  function Run(b: Batch, batchSize: nat, rows: nat, costs: seq<real>): (b': Batch)
    requires rows > 0 && batchSize > 0
    ensures CursorOf(b') == AdvanceN(CursorOf(b), batchSize, rows, |costs|)
    decreases |costs|
  {
    if |costs| == 0 then b
    else Account(Run(b, batchSize, rows, costs[..|costs| - 1]), batchSize, rows, costs[|costs| - 1])
  }

  /** A batch at the start of an epoch: finished, or never used. */
  predicate Fresh(b: Batch) {
    b.finished || b == Batch(0, 0.0, false)
  }

  /**
   * The cost a batch reports: during an epoch, the sum of the slice costs so
   * far; after the last slice, their mean over the ⌈rows/batch_size⌉ slices.
   */
  lemma {:induction false} RunReportsMean(b: Batch, batchSize: nat, rows: nat, costs: seq<real>)
    requires rows > 0 && batchSize > 0 && Fresh(b)
    requires 1 <= |costs| <= BatchCount(rows, batchSize)
    ensures var r := Run(b, batchSize, rows, costs);
      && (|costs| < BatchCount(rows, batchSize) ==> !r.finished && r.cost == Total(costs))
      && (|costs| == BatchCount(rows, batchSize) ==> r.finished && r.cost == Mean(Total(costs), |costs|))
    decreases |costs|
  {
    var init := costs[..|costs| - 1];
    var prev := Run(b, batchSize, rows, init);
    if |costs| > 1 {
      RunReportsMean(b, batchSize, rows, init);
      EpochProgress(CursorOf(b), batchSize, rows, |init|);
      assert Restart(prev) == prev;
    } else {
      assert init == [];
      assert Restart(prev) == Batch(0, 0.0, false);
    }
    EpochProgress(CursorOf(b), batchSize, rows, |costs|);
  }

  /** The cursor the bookkeeping leaves: batch_size rows past the restarted begin, finished once past the table. */
  lemma AccountMoves(b: Batch, batchSize: nat, rows: nat, sliceCost: real)
    requires rows > 0 && batchSize > 0
    ensures var b' := Account(b, batchSize, rows, sliceCost);
      && b'.begin == Restart(b).begin + batchSize
      && (b'.finished <==> b'.begin >= rows)
      && (!b'.finished ==> b'.cost == Accrued(b, sliceCost))
      && (b'.finished ==> b'.cost == Mean(Accrued(b, sliceCost), BatchCount(rows, batchSize)))
  {
  }

  /** The batch state a call leaves is the bookkeeping of the slice cost it accounted. */
  lemma ProcessAccounts(b: Batch, batchSize: nat, nn: Network, t: Mat, rate: real,
                        act: real -> real, df: real -> real, junk: real)
    requires nn.Valid() && TableFits(nn, t) && t.rows > 0 && batchSize > 0
    requires ValidCursor(CursorOf(b), t.rows)
    ensures var r := Process(b, batchSize, nn, t, rate, act, df, junk);
      r.batch == Account(b, batchSize, t.rows, r.sliceCost)
  {
    var r := Process(b, batchSize, nn, t, rate, act, df, junk);
    AccountMoves(b, batchSize, t.rows, r.sliceCost);
  }

  /** A run of calls: the batch state, the network, and the cost each call accounted. */
  datatype Trace = Trace(batch: Batch, net: Network, costs: seq<real>)

  /** Accounting one more cost on top of the bookkeeping of a prefix is the bookkeeping of the extended costs. */
  lemma RunSnoc(b: Batch, batchSize: nat, rows: nat, init: seq<real>, last: real)
    requires rows > 0 && batchSize > 0
    ensures Run(b, batchSize, rows, init + [last]) == Account(Run(b, batchSize, rows, init), batchSize, rows, last)
  {
    assert (init + [last])[..|init|] == init;
  }

  /**
   * k calls of `batch_process` on the same table, each on the network the
   * previous one trained. The trace holds the k slice costs the calls
   * accounted, in call order, and the batch state is their bookkeeping from b.
   */
  function Train(b: Batch, batchSize: nat, nn: Network, t: Mat, rate: real,
                 act: real -> real, df: real -> real, junk: real, k: nat): (r: Trace)
    requires nn.Valid() && TableFits(nn, t) && t.rows > 0 && batchSize > 0
    requires ValidCursor(CursorOf(b), t.rows)
    ensures r.net.Valid() && r.net.arch == nn.arch && |r.costs| == k
    ensures ValidCursor(CursorOf(r.batch), t.rows)
    ensures r.batch == Run(b, batchSize, t.rows, r.costs)
    decreases k
  {
    if k == 0 then Trace(b, nn, [])
    else
      var prev := Train(b, batchSize, nn, t, rate, act, df, junk, k - 1);
      FitsSameArch(nn, prev.net, t);
      var o := Process(prev.batch, batchSize, prev.net, t, rate, act, df, junk);
      ProcessAccounts(prev.batch, batchSize, prev.net, t, rate, act, df, junk);
      RunSnoc(b, batchSize, t.rows, prev.costs, o.sliceCost);
      Trace(o.batch, o.net, prev.costs + [o.sliceCost])
  }

  /** From a fresh batch, the call after k < ⌈rows/batch_size⌉ calls starts its slice at row k·batch_size. */
  lemma CallStart(b: Batch, batchSize: nat, rows: nat, costs: seq<real>)
    requires rows > 0 && batchSize > 0 && Fresh(b) && |costs| < BatchCount(rows, batchSize)
    ensures Restart(Run(b, batchSize, rows, costs)).begin == |costs| * batchSize < rows
  {
    var k := |costs|;
    if k > 0 {
      EpochProgress(CursorOf(b), batchSize, rows, k);
    }
  }

  /**
   * Call k + 1 of an epoch trains on the rows of slice k: its slice starts
   * at k·batch_size, and a row of the table lies in it exactly when
   * row / batch_size = k.
   */
  lemma TrainSlice(b: Batch, batchSize: nat, nn: Network, t: Mat, rate: real,
                   act: real -> real, df: real -> real, junk: real, k: nat)
    requires nn.Valid() && TableFits(nn, t) && t.rows > 0 && batchSize > 0 && Fresh(b)
    requires k < BatchCount(t.rows, batchSize)
    ensures var start := Restart(Train(b, batchSize, nn, t, rate, act, df, junk, k).batch).begin;
      && start == k * batchSize < t.rows
      && forall r: nat :: r < t.rows ==> (InSlice(r, k, batchSize, t.rows) <==> r / batchSize == k)
  {
    var prev := Train(b, batchSize, nn, t, rate, act, df, junk, k);
    CallStart(b, batchSize, t.rows, prev.costs);
    forall r: nat | r < t.rows
      ensures InSlice(r, k, batchSize, t.rows) <==> r / batchSize == k
    {
      SlicesPartitionTable(r, batchSize, t.rows);
    }
  }

  /** Over an epoch, the cost reported at its end is the mean of the costs of its slices. */
  lemma EpochReportsMeanCost(b: Batch, batchSize: nat, nn: Network, t: Mat, rate: real,
                             act: real -> real, df: real -> real, junk: real)
    requires nn.Valid() && TableFits(nn, t) && t.rows > 0 && batchSize > 0 && Fresh(b)
    ensures var count := BatchCount(t.rows, batchSize);
      var r := Train(b, batchSize, nn, t, rate, act, df, junk, count);
      r.batch.finished && r.batch.cost == Mean(Total(r.costs), count)
  {
    var count := BatchCount(t.rows, batchSize);
    BatchCountIsCeiling(t.rows, batchSize);
    RunReportsMean(b, batchSize, t.rows, Train(b, batchSize, nn, t, rate, act, df, junk, count).costs);
  }
}

=== FILE: finitediff.dfy ===
/**
 * `nn_finite_diff` (single-header draft): the gradient estimated by finite
 * differences. The cost c of the network is taken once; then, for every
 * weight and every bias in turn, the parameter is saved, nudged by eps, the
 * cost is taken again, the difference quotient (cost' − c)/eps is written to
 * the same entry of g, and the saved value is written back.
 *
 * The cost here is the two-table `nn_cost(nn, ti, to)` of the same draft.
 */
module FiniteDiff {
  import opened Matrices
  import opened Networks

  /** The two tables fit nn: equally many rows, at least one, inputs of width L0 and targets of width Ln. */
  predicate SplitFits(nn: Network, ti: Mat, to: Mat)
    requires nn.Valid()
  {
    && ti.Valid() && to.Valid() && ti.rows == to.rows && ti.rows > 0
    && ti.cols == nn.InputWidth() && to.cols == nn.OutputWidth()
  }

  /** `MAT_AT(nn.weights[l], k, j) = v`: one weight entry is overwritten, nothing else changes. */
  function SetWeight(nn: Network, l: nat, k: nat, j: nat, v: real): (r: Network)
    requires nn.Valid() && l < |nn.weights| && k < nn.weights[l].rows && j < nn.weights[l].cols
    ensures r.Valid() && r.arch == nn.arch && r.biases == nn.biases && r.activations == nn.activations
    ensures r.weights[l].cells[k][j] == v
    ensures forall l', k', j' ::
      (0 <= l' < |nn.weights| && 0 <= k' < nn.weights[l'].rows && 0 <= j' < nn.weights[l'].cols &&
       (l', k', j') != (l, k, j)) ==> r.weights[l'].cells[k'][j'] == nn.weights[l'].cells[k'][j']
  {
    var w := nn.weights[l];
    nn.(weights := nn.weights[l := Mat(w.rows, w.cols, w.cells[k := w.cells[k][j := v]])])
  }

  /** `MAT_AT(nn.biases[l], 0, j) = v`: one bias entry is overwritten, nothing else changes. */
  function SetBias(nn: Network, l: nat, j: nat, v: real): (r: Network)
    requires nn.Valid() && l < |nn.biases| && j < |nn.biases[l]|
    ensures r.Valid() && r.arch == nn.arch && r.weights == nn.weights && r.activations == nn.activations
    ensures r.biases[l][j] == v
    ensures forall l', j' :: 0 <= l' < |nn.biases| && 0 <= j' < |nn.biases[l']| && (l', j') != (l, j) ==>
      r.biases[l'][j'] == nn.biases[l'][j']
  {
    nn.(biases := nn.biases[l := nn.biases[l][j := v]])
  }

  /** Writing back the saved weight after overwriting it restores the network exactly. */
  lemma SetWeightRestores(nn: Network, l: nat, k: nat, j: nat, v: real)
    requires nn.Valid() && l < |nn.weights| && k < nn.weights[l].rows && j < nn.weights[l].cols
    ensures SetWeight(SetWeight(nn, l, k, j, v), l, k, j, nn.weights[l].cells[k][j]) == nn
  {
    var w := nn.weights[l];
    var back := SetWeight(SetWeight(nn, l, k, j, v), l, k, j, w.cells[k][j]);
    assert back.weights[l].cells[k] == w.cells[k];
    assert back.weights[l].cells == w.cells;
    assert back.weights == nn.weights;
  }

  /** Writing back the saved bias after overwriting it restores the network exactly. */
  lemma SetBiasRestores(nn: Network, l: nat, j: nat, v: real)
    requires nn.Valid() && l < |nn.biases| && j < |nn.biases[l]|
    ensures SetBias(SetBias(nn, l, j, v), l, j, nn.biases[l][j]) == nn
  {
    var back := SetBias(SetBias(nn, l, j, v), l, j, nn.biases[l][j]);
    assert back.biases[l] == nn.biases[l];
    assert back.biases == nn.biases;
  }

  /** The cost after nudging weight W_l[k,j] by eps, everything else as in nn. */
  function WeightNudgedCost(nn: Network, ti: Mat, to: Mat, act: real -> real, eps: real, l: nat, k: nat, j: nat): real
    requires nn.Valid() && SplitFits(nn, ti, to)
    requires l < |nn.weights| && k < nn.weights[l].rows && j < nn.weights[l].cols
  {
    CostSplit(SetWeight(nn, l, k, j, nn.weights[l].cells[k][j] + eps), ti, to, act)
  }

  /** The cost after nudging bias b_l[j] by eps, everything else as in nn. */
  function BiasNudgedCost(nn: Network, ti: Mat, to: Mat, act: real -> real, eps: real, l: nat, j: nat): real
    requires nn.Valid() && SplitFits(nn, ti, to)
    requires l < |nn.biases| && j < |nn.biases[l]|
  {
    CostSplit(SetBias(nn, l, j, nn.biases[l][j] + eps), ti, to, act)
  }

  /** The outcome of probing one parameter: the difference quotient, and the network after the write-back. */
  datatype Probe = Probe(slope: real, net: Network)

  /** The difference quotient (c' − c)/eps: the slope s with which c + eps · s lands on c'. */
  function Slope(c: real, c': real, eps: real): (s: real)
    requires eps != 0.0
    ensures c + eps * s == c'
  {
    (c' - c) / eps
  }

  /**
   * One weight step of the loop: save w = W_l[k,j], set it to w + eps, take
   * the cost, form (cost − c)/eps, write w back. The network comes back
   * unchanged, and the slope is the one that leads from c to the nudged cost.
   */
  function ProbeWeight(nn: Network, ti: Mat, to: Mat, act: real -> real, c: real, eps: real,
                       l: nat, k: nat, j: nat): (p: Probe)
    requires nn.Valid() && SplitFits(nn, ti, to) && eps != 0.0
    requires l < |nn.weights| && k < nn.weights[l].rows && j < nn.weights[l].cols
    ensures p.net == nn
    ensures p.slope == Slope(c, WeightNudgedCost(nn, ti, to, act, eps, l, k, j), eps)
  {
    var saved := nn.weights[l].cells[k][j];
    var nudged := SetWeight(nn, l, k, j, saved + eps);
    SetWeightRestores(nn, l, k, j, saved + eps);
    Probe(Slope(c, WeightNudgedCost(nn, ti, to, act, eps, l, k, j), eps), SetWeight(nudged, l, k, j, saved))
  }

  /** One bias step of the loop: the same save, nudge, measure and write-back for b_l[j]. */
  function ProbeBias(nn: Network, ti: Mat, to: Mat, act: real -> real, c: real, eps: real,
                     l: nat, j: nat): (p: Probe)
    requires nn.Valid() && SplitFits(nn, ti, to) && eps != 0.0
    requires l < |nn.biases| && j < |nn.biases[l]|
    ensures p.net == nn
    ensures p.slope == Slope(c, BiasNudgedCost(nn, ti, to, act, eps, l, j), eps)
  {
    var saved := nn.biases[l][j];
    var nudged := SetBias(nn, l, j, saved + eps);
    SetBiasRestores(nn, l, j, saved + eps);
    Probe(Slope(c, BiasNudgedCost(nn, ti, to, act, eps, l, j), eps), SetBias(nudged, l, j, saved))
  }

  /** What `nn_finite_diff` leaves behind: the gradient it wrote, and the network after every write-back. */
  datatype Estimate = Estimate(gradient: Network, net: Network)

  /** The weight loop: for every layer, row and column, the slope of the weight probe. */
  function WeightSlopes(nn: Network, ti: Mat, to: Mat, act: real -> real, c: real, eps: real): (ws: seq<Mat>)
    requires nn.Valid() && SplitFits(nn, ti, to) && eps != 0.0
    ensures |ws| == |nn.weights|
    ensures forall l :: 0 <= l < |ws| ==>
      && ws[l].Valid() && ws[l].rows == nn.weights[l].rows && ws[l].cols == nn.weights[l].cols
      && forall k, j :: 0 <= k < ws[l].rows && 0 <= j < ws[l].cols ==>
           ws[l].cells[k][j] == Slope(c, WeightNudgedCost(nn, ti, to, act, eps, l, k, j), eps)
  {
    seq(|nn.weights|, l requires 0 <= l < |nn.weights| =>
      Mat(nn.weights[l].rows, nn.weights[l].cols, seq(nn.weights[l].rows, k requires 0 <= k < nn.weights[l].rows =>
        seq(nn.weights[l].cols, j requires 0 <= j < nn.weights[l].cols =>
          ProbeWeight(nn, ti, to, act, c, eps, l, k, j).slope))))
  }

  /** The bias loop: for every layer and column, the slope of the bias probe. */
  function BiasSlopes(nn: Network, ti: Mat, to: Mat, act: real -> real, c: real, eps: real): (bs: seq<Row>)
    requires nn.Valid() && SplitFits(nn, ti, to) && eps != 0.0
    ensures |bs| == |nn.biases|
    ensures forall l :: 0 <= l < |bs| ==> |bs[l]| == |nn.biases[l]|
    ensures forall l, j :: 0 <= l < |nn.biases| && 0 <= j < |nn.biases[l]| ==>
      bs[l][j] == Slope(c, BiasNudgedCost(nn, ti, to, act, eps, l, j), eps)
  {
    seq(|nn.biases|, l requires 0 <= l < |nn.biases| =>
      seq(|nn.biases[l]|, j requires 0 <= j < |nn.biases[l]| => ProbeBias(nn, ti, to, act, c, eps, l, j).slope))
  }

  /**
   * Every weight and bias entry of `gr` is the slope that leads from the cost
   * of nn to the cost with that one parameter nudged by eps.
   */
  predicate HoldsSlopes(gr: Network, nn: Network, ti: Mat, to: Mat, act: real -> real, eps: real)
    requires nn.Valid() && gr.Valid() && gr.arch == nn.arch && SplitFits(nn, ti, to) && eps != 0.0
  {
    var c := CostSplit(nn, ti, to, act);
    && (forall l, k, j :: 0 <= l < |nn.weights| && 0 <= k < nn.weights[l].rows && 0 <= j < nn.weights[l].cols ==>
          gr.weights[l].cells[k][j] == Slope(c, WeightNudgedCost(nn, ti, to, act, eps, l, k, j), eps))
    && (forall l, j :: 0 <= l < |nn.biases| && 0 <= j < |nn.biases[l]| ==>
          gr.biases[l][j] == Slope(c, BiasNudgedCost(nn, ti, to, act, eps, l, j), eps))
  }

  /**
   * `nn_finite_diff(nn, g, eps, ti, to)`: every weight and bias entry of g
   * is overwritten with its difference quotient, all against the cost c of
   * nn as given; g's activation rows are not touched and nn's parameters are
   * restored. Each probe starts from nn itself, since the previous probe
   * wrote its parameter back.
   */
  function FiniteDiffOf(nn: Network, g: Network, eps: real, ti: Mat, to: Mat, act: real -> real): (r: Estimate)
    requires nn.Valid() && g.Valid() && g.arch == nn.arch && SplitFits(nn, ti, to) && eps != 0.0
    ensures r.net == nn
    ensures r.gradient.Valid() && r.gradient.arch == g.arch && r.gradient.activations == g.activations
    ensures HoldsSlopes(r.gradient, nn, ti, to, act, eps)
  {
    var c := CostSplit(nn, ti, to, act);
    Estimate(g.(weights := WeightSlopes(nn, ti, to, act, c, eps), biases := BiasSlopes(nn, ti, to, act, c, eps)), nn)
  }

  /**
   * A parameter the cost does not depend on, at this eps, gets a zero
   * estimate; in particular a nudge that the cost cannot see leaves the
   * corresponding gradient entry 0.
   */
  lemma FlatCostGivesZeroSlope(nn: Network, g: Network, eps: real, ti: Mat, to: Mat, act: real -> real,
                               l: nat, k: nat, j: nat)
    requires nn.Valid() && g.Valid() && g.arch == nn.arch && SplitFits(nn, ti, to) && eps != 0.0
    requires l < |nn.weights| && k < nn.weights[l].rows && j < nn.weights[l].cols
    requires WeightNudgedCost(nn, ti, to, act, eps, l, k, j) == CostSplit(nn, ti, to, act)
    ensures FiniteDiffOf(nn, g, eps, ti, to, act).gradient.weights[l].cells[k][j] == 0.0
  {
    var c := CostSplit(nn, ti, to, act);
    var gr := FiniteDiffOf(nn, g, eps, ti, to, act).gradient;
    assert gr.weights[l].cells[k][j] == Slope(c, c, eps);
    SlopeOfNoChange(c, eps);
  }

  /** A nudge that leaves the cost where it was has slope 0. */
  lemma SlopeOfNoChange(c: real, eps: real)
    requires eps != 0.0
    ensures Slope(c, c, eps) == 0.0
  {
    var s := Slope(c, c, eps);
    assert eps * s == 0.0;
    ProductZero(eps, s);
  }

  /** For a positive eps the slope is positive exactly when the nudge raised the cost, and negative exactly when it lowered it. */
  lemma SlopeSign(c: real, c': real, eps: real)
    requires eps > 0.0
    ensures Slope(c, c', eps) > 0.0 <==> c' > c
    ensures Slope(c, c', eps) < 0.0 <==> c' < c
  {
    var s := Slope(c, c', eps);
    if s > 0.0 {
      PositiveProduct(eps, s);
    } else if s < 0.0 {
      PositiveProduct(eps, -s);
    } else {
      assert c' == c;
    }
  }

  /** The product of two positive reals is positive. */
  lemma PositiveProduct(a: real, b: real)
    requires a > 0.0 && b > 0.0
    ensures a * b > 0.0
  {
  }

  /** A product with a non-zero factor vanishes only when the other factor does. */
  lemma ProductZero(eps: real, s: real)
    requires eps != 0.0 && eps * s == 0.0
    ensures s == 0.0
  {
    assert s == (eps * s) / eps;
  }
}

=== FILE: matrices.dfy ===
/**
 * Dense row-major matrices and rows (1 × cols views) over `real`, with the
 * engine's matrix primitives. Each primitive that the engine writes as a loop
 * nest over a destination matrix is a method here that builds the
 * destination's new contents with the same loops; shape violations, fatal
 * assertions in the engine, are preconditions.
 */
module Matrices {

  /** One row of a matrix, or a row view into one. */
  type Row = seq<real>

  /** A `rows` × `cols` matrix; `cells[i][j]` is the cell in row i, column j. */
  datatype Mat = Mat(rows: nat, cols: nat, cells: seq<seq<real>>) {
    /** The cells really form a `rows` × `cols` grid. */
    predicate Valid() {
      |cells| == rows && forall i :: 0 <= i < |cells| ==> |cells[i]| == cols
    }
  }

  /** Equal row and column counts: the requirement of every elementwise operation. */
  predicate SameShape(a: Mat, b: Mat) {
    a.rows == b.rows && a.cols == b.cols
  }

  /** Σ_k u[k]·v[k], accumulated left to right. */
  function Dot(u: Row, v: Row): real
    requires |u| == |v|
    decreases |u|
  {
    if |u| == 0 then 0.0 else Dot(u[..|u| - 1], v[..|v| - 1]) + u[|u| - 1] * v[|v| - 1]
  }

  /** Column `j` of `m`, top to bottom. */
  function Column(m: Mat, j: nat): Row
    requires m.Valid() && j < m.cols
  {
    seq(m.rows, k requires 0 <= k < m.rows => m.cells[k][j])
  }

  /** The dot product against the zero vector vanishes. */
  lemma {:induction false} DotZeroRight(u: Row, v: Row)
    requires |u| == |v|
    requires forall k :: 0 <= k < |v| ==> v[k] == 0.0
    ensures Dot(u, v) == 0.0
    decreases |u|
  {
    if |u| > 0 {
      DotZeroRight(u[..|u| - 1], v[..|v| - 1]);
    }
  }

  /** The single accumulator of `matrix_multi`'s innermost loop: starts at 0 and adds u[k]·v[k] for k = 0, 1, .... */
  method DotProduct(u: Row, v: Row) returns (acc: real)
    requires |u| == |v|
    ensures acc == Dot(u, v)
  {
    acc := 0.0;
    var k := 0;
    while k < |u|
      invariant 0 <= k <= |u|
      invariant acc == Dot(u[..k], v[..k])
    {
      assert u[..k + 1][..k] == u[..k] && v[..k + 1][..k] == v[..k];
      acc := acc + u[k] * v[k];
      k := k + 1;
    }
    assert u[..k] == u && v[..k] == v;
  }

  /**
   * `matrix_multi(dst, a, b)`: needs a.cols == b.rows, dst.rows == a.rows and
   * dst.cols == b.cols; afterwards dst[i][j] = Σ_k a[i][k]·b[k][j]. The
   * destination's old contents are never read.
   */
  method MatrixMulti(dst: Mat, a: Mat, b: Mat) returns (r: Mat)
    requires dst.Valid() && a.Valid() && b.Valid()
    requires a.cols == b.rows
    requires dst.rows == a.rows && dst.cols == b.cols
    ensures r.Valid() && SameShape(r, dst)
    ensures forall i, j :: 0 <= i < r.rows && 0 <= j < r.cols ==> r.cells[i][j] == Dot(a.cells[i], Column(b, j))
  {
    var cells: seq<seq<real>> := [];
    var i := 0;
    while i < dst.rows
      invariant 0 <= i <= dst.rows && |cells| == i
      invariant forall i' :: 0 <= i' < i ==> |cells[i']| == dst.cols
      invariant forall i', j :: 0 <= i' < i && 0 <= j < dst.cols ==> cells[i'][j] == Dot(a.cells[i'], Column(b, j))
    {
      var row: seq<real> := [];
      var j := 0;
      while j < dst.cols
        invariant 0 <= j <= dst.cols && |row| == j
        invariant forall j' :: 0 <= j' < j ==> row[j'] == Dot(a.cells[i], Column(b, j'))
      {
        var cell := DotProduct(a.cells[i], Column(b, j));
        row := row + [cell];
        j := j + 1;
      }
      cells := cells + [row];
      i := i + 1;
    }
    r := Mat(dst.rows, dst.cols, cells);
  }

  /** `matrix_sum(dst, a)`: needs equal shapes; adds `a` into `dst` cell by cell. */
  method MatrixSum(dst: Mat, a: Mat) returns (r: Mat)
    requires dst.Valid() && a.Valid() && SameShape(dst, a)
    ensures r.Valid() && SameShape(r, dst)
    ensures forall i, j :: 0 <= i < r.rows && 0 <= j < r.cols ==> r.cells[i][j] == dst.cells[i][j] + a.cells[i][j]
  {
    var cells := dst.cells;
    var i := 0;
    while i < dst.rows
      invariant 0 <= i <= dst.rows && |cells| == dst.rows
      invariant forall i' :: 0 <= i' < dst.rows ==> |cells[i']| == dst.cols
      invariant forall i', j :: 0 <= i' < i && 0 <= j < dst.cols ==> cells[i'][j] == dst.cells[i'][j] + a.cells[i'][j]
      invariant forall i' :: i <= i' < dst.rows ==> cells[i'] == dst.cells[i']
    {
      var row := cells[i];
      var j := 0;
      while j < dst.cols
        invariant 0 <= j <= dst.cols && |row| == dst.cols
        invariant forall j' :: 0 <= j' < j ==> row[j'] == dst.cells[i][j'] + a.cells[i][j']
        invariant forall j' :: j <= j' < dst.cols ==> row[j'] == dst.cells[i][j']
      {
        row := row[j := row[j] + a.cells[i][j]];
        j := j + 1;
      }
      cells := cells[i := row];
      i := i + 1;
    }
    r := Mat(dst.rows, dst.cols, cells);
  }

  /** `matrix_activation(m)`: replaces every cell with act(cell); the shape is kept. */
  method MatrixActivation(m: Mat, act: real -> real) returns (r: Mat)
    requires m.Valid()
    ensures r.Valid() && SameShape(r, m)
    ensures forall i, j :: 0 <= i < r.rows && 0 <= j < r.cols ==> r.cells[i][j] == act(m.cells[i][j])
  {
    var cells := m.cells;
    var i := 0;
    while i < m.rows
      invariant 0 <= i <= m.rows && |cells| == m.rows
      invariant forall i' :: 0 <= i' < m.rows ==> |cells[i']| == m.cols
      invariant forall i', j :: 0 <= i' < i && 0 <= j < m.cols ==> cells[i'][j] == act(m.cells[i'][j])
      invariant forall i' :: i <= i' < m.rows ==> cells[i'] == m.cells[i']
    {
      var row := cells[i];
      var j := 0;
      while j < m.cols
        invariant 0 <= j <= m.cols && |row| == m.cols
        invariant forall j' :: 0 <= j' < j ==> row[j'] == act(m.cells[i][j'])
        invariant forall j' :: j <= j' < m.cols ==> row[j'] == m.cells[i][j']
      {
        row := row[j := act(row[j])];
        j := j + 1;
      }
      cells := cells[i := row];
      i := i + 1;
    }
    r := Mat(m.rows, m.cols, cells);
  }

  /** `matrix_fill(m, num)`: every cell becomes `num`; the shape is kept. */
  method MatrixFill(m: Mat, num: real) returns (r: Mat)
    requires m.Valid()
    ensures r.Valid() && SameShape(r, m)
    ensures forall i, j :: 0 <= i < r.rows && 0 <= j < r.cols ==> r.cells[i][j] == num
  {
    var cells := m.cells;
    var i := 0;
    while i < m.rows
      invariant 0 <= i <= m.rows && |cells| == m.rows
      invariant forall i' :: 0 <= i' < m.rows ==> |cells[i']| == m.cols
      invariant forall i', j :: 0 <= i' < i && 0 <= j < m.cols ==> cells[i'][j] == num
    {
      var row := cells[i];
      var j := 0;
      while j < m.cols
        invariant 0 <= j <= m.cols && |row| == m.cols
        invariant forall j' :: 0 <= j' < j ==> row[j'] == num
      {
        row := row[j := num];
        j := j + 1;
      }
      cells := cells[i := row];
      i := i + 1;
    }
    r := Mat(m.rows, m.cols, cells);
  }

  /** `matrix_copy(dst, src)`: needs equal shapes; afterwards dst equals src cell for cell (src is only read). */
  method MatrixCopy(dst: Mat, src: Mat) returns (r: Mat)
    requires dst.Valid() && src.Valid() && SameShape(dst, src)
    ensures r == src
  {
    var cells := dst.cells;
    var i := 0;
    while i < dst.rows
      invariant 0 <= i <= dst.rows && |cells| == dst.rows
      invariant forall i' :: 0 <= i' < dst.rows ==> |cells[i']| == dst.cols
      invariant forall i' :: 0 <= i' < i ==> cells[i'] == src.cells[i']
    {
      var row := cells[i];
      var j := 0;
      while j < dst.cols
        invariant 0 <= j <= dst.cols && |row| == dst.cols
        invariant forall j' :: 0 <= j' < j ==> row[j'] == src.cells[i][j']
      {
        row := row[j := src.cells[i][j]];
        j := j + 1;
      }
      assert row == src.cells[i];
      cells := cells[i := row];
      i := i + 1;
    }
    assert cells == src.cells;
    r := Mat(dst.rows, dst.cols, cells);
  }

  /** Swapping two entries of a sequence keeps its multiset. */
  lemma SwapKeepsMultiset<T>(s: seq<T>, i: nat, j: nat)
    requires i < |s| && j < |s|
    ensures multiset(s[i := s[j]][j := s[i]]) == multiset(s)
  {
    if i != j {
      var t := s[i := s[j]];
      assert multiset(t) == multiset(s) - multiset{s[i]} + multiset{s[j]};
      assert multiset(t[j := s[i]]) == multiset(t) - multiset{t[j]} + multiset{s[i]};
    }
  }

  /**
   * `mat_shuffle_rows(m)`: for each i, row i is swapped (all columns at
   * once) with row j = i + draws[i] % (rows − i), where `draws[i]` is the
   * value `rand()` returned at step i. The rows come out as a permutation of
   * the input rows, each row intact; if every draw picks j = i nothing moves.
   */
  method MatShuffleRows(m: Mat, draws: seq<nat>) returns (r: Mat)
    requires m.Valid() && |draws| == m.rows
    ensures r.Valid() && SameShape(r, m)
    ensures multiset(r.cells) == multiset(m.cells)
    ensures (forall i :: 0 <= i < m.rows ==> draws[i] % (m.rows - i) == 0) ==> r == m
  {
    var cells := m.cells;
    var i := 0;
    while i < m.rows
      invariant 0 <= i <= m.rows && |cells| == m.rows
      invariant forall k :: 0 <= k < m.rows ==> |cells[k]| == m.cols
      invariant multiset(cells) == multiset(m.cells)
      invariant (forall k :: 0 <= k < m.rows ==> draws[k] % (m.rows - k) == 0) ==> cells == m.cells
    {
      var j := i + draws[i] % (m.rows - i);
      if i != j {
        SwapKeepsMultiset(cells, i, j);
        cells := cells[i := cells[j]][j := cells[i]];
      }
      i := i + 1;
    }
    r := Mat(m.rows, m.cols, cells);
  }

  /** `matrix_row(m, r)` in its row form: a view of row `r` with m.cols cells. */
  function MatrixRow(m: Mat, r: nat): (row: Row)
    requires m.Valid() && r < m.rows
    ensures |row| == m.cols
    ensures forall j :: 0 <= j < m.cols ==> row[j] == m.cells[r][j]
  {
    m.cells[r]
  }

  /** `row_as_matrix(row)`: the row seen as a 1 × cols matrix. */
  function RowAsMatrix(row: Row): (m: Mat)
    ensures m.Valid() && m.rows == 1 && m.cols == |row|
    ensures forall j :: 0 <= j < |row| ==> m.cells[0][j] == row[j]
  {
    Mat(1, |row|, [row])
  }

  /** `matrix_row(m, r)` in the header's form: row `r` of m as a 1 × m.cols matrix. */
  function MatrixRowView(m: Mat, r: nat): (v: Mat)
    requires m.Valid() && r < m.rows
    ensures v.Valid() && v.rows == 1 && v.cols == m.cols
    ensures forall j :: 0 <= j < m.cols ==> v.cells[0][j] == m.cells[r][j]
  {
    RowAsMatrix(MatrixRow(m, r))
  }

  /** A row seen as a matrix and read back as row 0 is the same row; the header's matrix row is the row seen as a matrix. */
  lemma RowViewsRoundTrip(row: Row, m: Mat, r: nat)
    requires m.Valid() && r < m.rows
    ensures MatrixRow(RowAsMatrix(row), 0) == row
    ensures RowAsMatrix(MatrixRow(m, r)) == MatrixRowView(m, r)
    ensures MatrixRow(MatrixRowView(m, r), 0) == MatrixRow(m, r)
  {
  }

  /** `row_slice(row, i, cols)`: needs i < row.cols and i + cols <= row.cols; the view of cells [i, i + cols). */
  function RowSlice(row: Row, i: nat, cols: nat): (s: Row)
    requires i < |row| && i + cols <= |row|
    ensures |s| == cols
    ensures forall k :: 0 <= k < cols ==> s[k] == row[i + k]
  {
    row[i..i + cols]
  }

  /** Slicing a row at `a` into its head and its tail and putting the two back together gives the row. */
  lemma SliceSplit(row: Row, a: nat)
    requires a < |row|
    ensures RowSlice(row, 0, a) + RowSlice(row, a, |row| - a) == row
  {
    assert row[0..a] + row[a..|row|] == row;
  }

  /** The `size` rows of `t` starting at row `begin`, as a matrix view (the mini-batch view of `batch_process`). */
  function SubRows(t: Mat, begin: nat, size: nat): (s: Mat)
    requires t.Valid() && begin + size <= t.rows
    ensures s.Valid() && s.rows == size && s.cols == t.cols
    ensures forall k :: 0 <= k < size ==> s.cells[k] == t.cells[begin + k]
  {
    Mat(size, t.cols, t.cells[begin..begin + size])
  }
}

=== FILE: networks.dfy ===
/**
 * The network: an architecture L0..Ln, for each layer i < n a weight matrix
 * W_i of shape (L_i, L_{i+1}) and a bias row b_i of width L_{i+1}, and for
 * each i <= n an activation row a_i of width L_i (a_0 is the input buffer,
 * a_n the output buffer). The activation function is an arbitrary
 * `act: real -> real`, the same at every layer.
 *
 * Layer count convention: n = |arch| − 1 weight layers and n + 1 activation
 * rows, so the output buffer is activations[n].
 */
module Networks {
  import opened Matrices

  datatype Network = Network(arch: seq<nat>, weights: seq<Mat>, biases: seq<Row>, activations: seq<Row>) {

    /** Every buffer has the shape the architecture dictates. */
    predicate Valid() {
      && |arch| >= 1
      && |weights| == |arch| - 1
      && |biases| == |arch| - 1
      && |activations| == |arch|
      && (forall i {:trigger weights[i]} :: 0 <= i < |weights| ==>
            weights[i].Valid() && weights[i].rows == arch[i] && weights[i].cols == arch[i + 1])
      && (forall i {:trigger biases[i]} :: 0 <= i < |biases| ==> |biases[i]| == arch[i + 1])
      && (forall i {:trigger activations[i]} :: 0 <= i < |activations| ==> |activations[i]| == arch[i])
    }

    /** n, the number of weight layers. */
    function Layers(): nat
      requires |arch| >= 1
    {
      |arch| - 1
    }

    /** L0, the width of the input buffer. */
    function InputWidth(): nat
      requires |arch| >= 1
    {
      arch[0]
    }

    /** Ln, the width of the output buffer. */
    function OutputWidth(): nat
      requires |arch| >= 1
    {
      arch[|arch| - 1]
    }

    /** The output buffer a_n (`NN_OUTPUT`). */
    function Output(): (o: Row)
      requires Valid()
      ensures |o| == OutputWidth()
    {
      activations[|arch| - 1]
    }
  }

  /** A `rows` × `cols` matrix with every cell `v`. */
  function Filled(rows: nat, cols: nat, v: real): (m: Mat)
    ensures m.Valid() && m.rows == rows && m.cols == cols
  {
    Mat(rows, cols, seq(rows, _ => seq(cols, _ => v)))
  }

  /** A row of `n` cells, each `v`. */
  function Constant(n: nat, v: real): Row {
    seq(n, _ => v)
  }

  /**
   * `nn_alloc(arch)`: n = |arch| − 1 weight matrices W_{i−1} of shape
   * (arch[i−1], arch[i]), n bias rows of width arch[i], and n + 1 activation
   * rows of width arch[i]. Storage is left uninitialised; `junk` stands for
   * whatever it happens to hold.
   */
  function NnAlloc(arch: seq<nat>, junk: real): (nn: Network)
    requires |arch| >= 1
    ensures nn.Valid() && nn.arch == arch
    ensures |nn.weights| == |arch| - 1 && |nn.biases| == |arch| - 1 && |nn.activations| == |arch|
    ensures forall i :: 0 <= i < |arch| - 1 ==>
      nn.weights[i].rows == arch[i] && nn.weights[i].cols == arch[i + 1] && |nn.biases[i]| == arch[i + 1]
    ensures forall i :: 0 <= i < |arch| ==> |nn.activations[i]| == arch[i]
  {
    Network(
      arch,
      seq(|arch| - 1, i requires 0 <= i < |arch| - 1 => Filled(arch[i], arch[i + 1], junk)),
      seq(|arch| - 1, i requires 0 <= i < |arch| - 1 => Constant(arch[i + 1], junk)),
      seq(|arch|, i requires 0 <= i < |arch| => Constant(arch[i], junk)))
  }

  /** A matrix of m's shape with every cell 0. */
  function ZeroedMat(m: Mat): Mat {
    Filled(m.rows, m.cols, 0.0)
  }

  /** `nn_zero`: every weight, bias and activation cell becomes 0; every shape is kept. */
  function NnZero(nn: Network): (z: Network)
    requires nn.Valid()
    ensures z.Valid() && z.arch == nn.arch
    ensures forall i, k, j :: 0 <= i < |z.weights| && 0 <= k < z.weights[i].rows && 0 <= j < z.weights[i].cols ==>
      z.weights[i].cells[k][j] == 0.0
    ensures forall i, j :: 0 <= i < |z.biases| && 0 <= j < |z.biases[i]| ==> z.biases[i][j] == 0.0
    ensures forall i, j :: 0 <= i < |z.activations| && 0 <= j < |z.activations[i]| ==> z.activations[i][j] == 0.0
  {
    Network(
      nn.arch,
      seq(|nn.weights|, i requires 0 <= i < |nn.weights| => ZeroedMat(nn.weights[i])),
      seq(|nn.biases|, i requires 0 <= i < |nn.biases| => Constant(|nn.biases[i]|, 0.0)),
      seq(|nn.activations|, i requires 0 <= i < |nn.activations| => Constant(|nn.activations[i]|, 0.0)))
  }

  /** Two valid networks with the same architecture and the same cells are the same network. */
  lemma NetworkExt(a: Network, b: Network)
    requires a.Valid() && b.Valid() && a.arch == b.arch
    requires forall i, k, j :: 0 <= i < |a.weights| && 0 <= k < a.weights[i].rows && 0 <= j < a.weights[i].cols ==>
      a.weights[i].cells[k][j] == b.weights[i].cells[k][j]
    requires forall i, j :: 0 <= i < |a.biases| && 0 <= j < |a.biases[i]| ==> a.biases[i][j] == b.biases[i][j]
    requires forall i, j :: 0 <= i < |a.activations| && 0 <= j < |a.activations[i]| ==>
      a.activations[i][j] == b.activations[i][j]
    ensures a == b
  {
    forall i | 0 <= i < |a.weights|
      ensures a.weights[i] == b.weights[i]
    {
      forall k | 0 <= k < a.weights[i].rows
        ensures a.weights[i].cells[k] == b.weights[i].cells[k]
      {
      }
    }
    forall i | 0 <= i < |a.biases|
      ensures a.biases[i] == b.biases[i]
    {
    }
    forall i | 0 <= i < |a.activations|
      ensures a.activations[i] == b.activations[i]
    {
    }
  }

  /** Zeroing forgets what the storage held: the zeroed network depends only on the architecture. */
  lemma ZeroForgetsContents(nn: Network, junk: real)
    requires nn.Valid()
    ensures NnZero(nn) == NnZero(NnAlloc(nn.arch, junk))
    ensures NnZero(NnZero(nn)) == NnZero(nn)
  {
    NetworkExt(NnZero(nn), NnZero(NnAlloc(nn.arch, junk)));
    NetworkExt(NnZero(NnZero(nn)), NnZero(nn));
  }

  /** One layer of the forward pass: act(a·W + b), cell by cell. */
  function Layer(a: Row, w: Mat, b: Row, act: real -> real): Row
    requires w.Valid() && |a| == w.rows && |b| == w.cols
  {
    seq(w.cols, j requires 0 <= j < w.cols => act(Dot(a, Column(w, j)) + b[j]))
  }

  /**
   * One step of `nn_forward` through the matrix primitives: multiply the
   * input row (as a 1-row matrix) by W into the destination row, add the bias
   * row, then apply the activation to every cell. The result is `Layer`.
   */
  method ForwardLayer(dst: Row, a: Row, w: Mat, b: Row, act: real -> real) returns (out: Row)
    requires w.Valid() && |a| == w.rows && |b| == w.cols && |dst| == w.cols
    ensures out == Layer(a, w, b, act)
  {
    var m := MatrixMulti(RowAsMatrix(dst), RowAsMatrix(a), w);
    m := MatrixSum(m, RowAsMatrix(b));
    m := MatrixActivation(m, act);
    out := MatrixRow(m, 0);
  }

  /** The activation rows a_0..a_m obtained from the input row by the first m layers. */
  function Acts(nn: Network, input: Row, m: nat, act: real -> real): (acts: seq<Row>)
    requires nn.Valid() && |input| == nn.arch[0] && m < |nn.arch|
    ensures |acts| == m + 1 && acts[0] == input
    ensures forall i :: 0 <= i <= m ==> |acts[i]| == nn.arch[i]
    ensures forall i :: 0 <= i < m ==> acts[i + 1] == Layer(acts[i], nn.weights[i], nn.biases[i], act)
    decreases m
  {
    if m == 0 then [input]
    else
      var prev := Acts(nn, input, m - 1, act);
      prev + [Layer(prev[m - 1], nn.weights[m - 1], nn.biases[m - 1], act)]
  }

  /**
   * `nn_forward`: a_{i+1} = act(a_i·W_i + b_i) for i = 0..n−1 in order;
   * weights, biases and the input buffer a_0 are left as they were.
   */
  function Forward(nn: Network, act: real -> real): (f: Network)
    requires nn.Valid()
    ensures f.Valid() && f.arch == nn.arch && f.weights == nn.weights && f.biases == nn.biases
    ensures f.activations[0] == nn.activations[0]
    ensures forall i :: 0 <= i < |nn.arch| - 1 ==>
      f.activations[i + 1] == Layer(f.activations[i], f.weights[i], f.biases[i], act)
  {
    nn.(activations := Acts(nn, nn.activations[0], |nn.arch| - 1, act))
  }

  /** Layer by layer, a forward pass depends only on the parameters and the input row. */
  lemma {:induction false} ActsAgree(a: Network, b: Network, act: real -> real, m: nat)
    requires a.Valid() && b.Valid() && a.arch == b.arch && a.weights == b.weights && a.biases == b.biases
    requires a.activations[0] == b.activations[0] && m < |a.arch|
    ensures forall i :: 0 <= i <= m ==> Forward(a, act).activations[i] == Forward(b, act).activations[i]
    decreases m
  {
    if m > 0 {
      ActsAgree(a, b, act, m - 1);
      var fa, fb := Forward(a, act), Forward(b, act);
      assert fa.activations[m] == Layer(fa.activations[m - 1], a.weights[m - 1], a.biases[m - 1], act);
    }
  }

  /** What the activation buffers held before a forward pass, apart from the input, has no influence on it. */
  lemma ForwardIgnoresStaleActivations(a: Network, b: Network, act: real -> real)
    requires a.Valid() && b.Valid() && a.arch == b.arch && a.weights == b.weights && a.biases == b.biases
    requires a.activations[0] == b.activations[0]
    ensures Forward(a, act) == Forward(b, act)
  {
    ActsAgree(a, b, act, |a.arch| - 1);
    assert Forward(a, act).activations == Forward(b, act).activations;
  }

  /** `row_copy(NN_INPUT(nn), x)`: the input buffer receives `x`, which must have its width. */
  function Load(nn: Network, x: Row): (l: Network)
    requires nn.Valid() && |x| == nn.InputWidth()
    ensures l.Valid() && l.arch == nn.arch && l.weights == nn.weights && l.biases == nn.biases
    ensures l.activations[0] == x
    ensures |l.activations| == |nn.activations|
    ensures forall i :: 1 <= i < |nn.activations| ==> l.activations[i] == nn.activations[i]
  {
    nn.(activations := nn.activations[0 := x])
  }

  /** The network's output for input row `x`: load it, run the forward pass, read the output buffer. */
  function Predict(nn: Network, x: Row, act: real -> real): (y: Row)
    requires nn.Valid() && |x| == nn.InputWidth()
    ensures |y| == nn.OutputWidth()
  {
    Forward(Load(nn, x), act).Output()
  }

  /** A training table fits `nn`: each row is [input(L0) ‖ target(Ln)], and Ln > 0 so both slices are in bounds. */
  predicate TableFits(nn: Network, t: Mat)
    requires nn.Valid()
  {
    t.Valid() && t.cols == nn.InputWidth() + nn.OutputWidth() && nn.OutputWidth() > 0
  }

  /** The input part of a table row: `row_slice(row, 0, L0)`. */
  function InputPart(nn: Network, row: Row): (x: Row)
    requires nn.Valid() && |row| == nn.InputWidth() + nn.OutputWidth() && nn.OutputWidth() > 0
    ensures |x| == nn.InputWidth()
  {
    RowSlice(row, 0, nn.InputWidth())
  }

  /** The target part of a table row: `row_slice(row, L0, Ln)`. */
  function TargetPart(nn: Network, row: Row): (y: Row)
    requires nn.Valid() && |row| == nn.InputWidth() + nn.OutputWidth() && nn.OutputWidth() > 0
    ensures |y| == nn.OutputWidth()
  {
    RowSlice(row, nn.InputWidth(), nn.OutputWidth())
  }

  /** A squared difference is never negative. */
  lemma SquareDiffNonNegative(x: real, y: real)
    ensures (x - y) * (x - y) >= 0.0
  {
  }

  /** Σ_j (u[j] − v[j])², accumulated left to right; a sum of squares, so never negative. */
  function SqErr(u: Row, v: Row): (e: real)
    requires |u| == |v|
    ensures e >= 0.0
    decreases |u|
  {
    if |u| == 0 then 0.0
    else
      SquareDiffNonNegative(u[|u| - 1], v[|v| - 1]);
      SqErr(u[..|u| - 1], v[..|v| - 1]) + (u[|u| - 1] - v[|v| - 1]) * (u[|u| - 1] - v[|v| - 1])
  }

  /** The squared error of a row against itself is zero. */
  lemma {:induction false} SqErrSelf(u: Row)
    ensures SqErr(u, u) == 0.0
    decreases |u|
  {
    if |u| > 0 {
      SqErrSelf(u[..|u| - 1]);
    }
  }

  /** The squared error of the network's prediction for one table row against its target. */
  function RowError(nn: Network, row: Row, act: real -> real): real
    requires nn.Valid() && |row| == nn.InputWidth() + nn.OutputWidth() && nn.OutputWidth() > 0
  {
    SqErr(Predict(nn, InputPart(nn, row), act), TargetPart(nn, row))
  }

  /** The sum of a sequence of reals, accumulated left to right. */
  function Total(s: seq<real>): real
    decreases |s|
  {
    if |s| == 0 then 0.0 else Total(s[..|s| - 1]) + s[|s| - 1]
  }

  /** A sum of non-negative terms is non-negative. */
  lemma {:induction false} TotalNonNegative(s: seq<real>)
    requires forall i :: 0 <= i < |s| ==> s[i] >= 0.0
    ensures Total(s) >= 0.0
    decreases |s|
  {
    if |s| > 0 {
      TotalNonNegative(s[..|s| - 1]);
    }
  }

  /** A sum of zeros is zero. */
  lemma {:induction false} TotalZero(s: seq<real>)
    requires forall i :: 0 <= i < |s| ==> s[i] == 0.0
    ensures Total(s) == 0.0
    decreases |s|
  {
    if |s| > 0 {
      TotalZero(s[..|s| - 1]);
    }
  }

  /** A non-negative sum shared out over a positive count stays non-negative. */
  lemma QuotientNonNegative(x: real, n: nat)
    requires x >= 0.0 && n > 0
    ensures x / (n as real) >= 0.0
  {
  }

  /** The error of every row of the table, in row order. */
  function RowErrors(nn: Network, t: Mat, act: real -> real): (es: seq<real>)
    requires nn.Valid() && TableFits(nn, t)
    ensures |es| == t.rows
    ensures forall r :: 0 <= r < t.rows ==> es[r] >= 0.0
  {
    seq(t.rows, r requires 0 <= r < t.rows => RowError(nn, t.cells[r], act))
  }

  /**
   * `nn_cost(nn, t)`: needs t.cols == L0 + Ln; for every row, the input part
   * goes through the network and (output − target)² is summed over the
   * output cells; the total is divided by the row count.
   */
  function Cost(nn: Network, t: Mat, act: real -> real): (c: real)
    requires nn.Valid() && TableFits(nn, t) && t.rows > 0
    ensures c >= 0.0
  {
    var sum := Total(RowErrors(nn, t, act));
    TotalNonNegative(RowErrors(nn, t, act));
    QuotientNonNegative(sum, t.rows);
    sum / (t.rows as real)
  }

  /** The network reproduces the target of a table row exactly. */
  predicate Reproduces(nn: Network, row: Row, act: real -> real)
    requires nn.Valid() && |row| == nn.InputWidth() + nn.OutputWidth() && nn.OutputWidth() > 0
  {
    Predict(nn, InputPart(nn, row), act) == TargetPart(nn, row)
  }

  /** A row whose target is reproduced contributes no error. */
  lemma ReproducedRowHasNoError(nn: Network, row: Row, act: real -> real)
    requires nn.Valid() && |row| == nn.InputWidth() + nn.OutputWidth() && nn.OutputWidth() > 0
    requires Reproduces(nn, row, act)
    ensures RowError(nn, row, act) == 0.0
  {
    SqErrSelf(TargetPart(nn, row));
  }

  /** A network that reproduces every target of the table has cost zero, the least cost there is. */
  lemma CostZeroWhenReproduced(nn: Network, t: Mat, act: real -> real)
    requires nn.Valid() && TableFits(nn, t) && t.rows > 0
    requires forall r :: 0 <= r < t.rows ==> Reproduces(nn, t.cells[r], act)
    ensures Cost(nn, t, act) == 0.0
    ensures forall t': Mat :: TableFits(nn, t') && t'.rows > 0 ==> Cost(nn, t, act) <= Cost(nn, t', act)
  {
    var es := RowErrors(nn, t, act);
    forall r | 0 <= r < t.rows
      ensures es[r] == 0.0
    {
      ReproducedRowHasNoError(nn, t.cells[r], act);
    }
    TotalZero(es);
    QuotientOfZero(t.rows);
  }

  /** Nothing divided among n is nothing. */
  lemma QuotientOfZero(n: nat)
    requires n > 0
    ensures 0.0 / (n as real) == 0.0
  {
  }

  /** A real whose square is zero is zero. */
  lemma SquareZero(d: real)
    ensures d * d == 0.0 ==> d == 0.0
  {
    if d != 0.0 {
      var s := d * d;
      assert s / d == d;
    }
  }

  /** A zero squared error means the two rows are equal. */
  lemma {:induction false} SqErrZeroMeansEqual(u: Row, v: Row)
    requires |u| == |v|
    ensures SqErr(u, v) == 0.0 ==> u == v
    decreases |u|
  {
    if |u| > 0 && SqErr(u, v) == 0.0 {
      var n := |u| - 1;
      var d := u[n] - v[n];
      SquareDiffNonNegative(u[n], v[n]);
      assert SqErr(u[..n], v[..n]) == 0.0 && d * d == 0.0;
      SquareZero(d);
      SqErrZeroMeansEqual(u[..n], v[..n]);
      assert u == u[..n] + [u[n]];
      assert v == v[..n] + [v[n]];
    }
  }

  /** A zero sum of non-negative terms has every term zero. */
  lemma {:induction false} TotalZeroParts(s: seq<real>)
    requires forall i :: 0 <= i < |s| ==> s[i] >= 0.0
    requires Total(s) == 0.0
    ensures forall i :: 0 <= i < |s| ==> s[i] == 0.0
    decreases |s|
  {
    if |s| > 0 {
      var n := |s| - 1;
      var init := s[..n];
      assert forall i :: 0 <= i < n ==> init[i] == s[i];
      TotalNonNegative(init);
      assert Total(s) == Total(init) + s[n];
      TotalZeroParts(init);
    }
  }

  /** A quotient by a positive count is zero only for a zero dividend. */
  lemma QuotientZero(x: real, n: nat)
    requires n > 0 && x / (n as real) == 0.0
    ensures x == 0.0
  {
    assert x == (x / (n as real)) * (n as real);
  }

  /** Cost zero happens only when the network reproduces the target of every row. */
  lemma CostZeroOnlyWhenReproduced(nn: Network, t: Mat, act: real -> real)
    requires nn.Valid() && TableFits(nn, t) && t.rows > 0
    requires Cost(nn, t, act) == 0.0
    ensures forall r :: 0 <= r < t.rows ==> Reproduces(nn, t.cells[r], act)
  {
    var es := RowErrors(nn, t, act);
    QuotientZero(Total(es), t.rows);
    TotalZeroParts(es);
    forall r | 0 <= r < t.rows
      ensures Reproduces(nn, t.cells[r], act)
    {
      var row := t.cells[r];
      assert es[r] == RowError(nn, row, act);
      SqErrZeroMeansEqual(Predict(nn, InputPart(nn, row), act), TargetPart(nn, row));
    }
  }

  /** The cost is zero exactly when every target of the table is reproduced. */
  lemma CostZeroIffReproduced(nn: Network, t: Mat, act: real -> real)
    requires nn.Valid() && TableFits(nn, t) && t.rows > 0
    ensures Cost(nn, t, act) == 0.0 <==> forall r :: 0 <= r < t.rows ==> Reproduces(nn, t.cells[r], act)
  {
    if Cost(nn, t, act) == 0.0 {
      CostZeroOnlyWhenReproduced(nn, t, act);
    }
    if forall r :: 0 <= r < t.rows ==> Reproduces(nn, t.cells[r], act) {
      CostZeroWhenReproduced(nn, t, act);
    }
  }

  /** The error of every row of two separate input and target tables, in row order. */
  function SplitErrors(nn: Network, ti: Mat, to: Mat, act: real -> real): (es: seq<real>)
    requires nn.Valid() && ti.Valid() && to.Valid() && ti.rows == to.rows
    requires ti.cols == nn.InputWidth() && to.cols == nn.OutputWidth()
    ensures |es| == ti.rows
    ensures forall r :: 0 <= r < ti.rows ==> es[r] >= 0.0
  {
    seq(ti.rows, r requires 0 <= r < ti.rows => SqErr(Predict(nn, ti.cells[r], act), to.cells[r]))
  }

  /**
   * `nn_cost(nn, ti, to)` of the single-header draft: inputs and targets in
   * two tables; needs ti.rows == to.rows and to.cols == Ln (and ti.cols == L0
   * for the copy into the input buffer); returns the summed squared error
   * divided by the row count.
   */
  function CostSplit(nn: Network, ti: Mat, to: Mat, act: real -> real): (c: real)
    requires nn.Valid() && ti.Valid() && to.Valid() && ti.rows == to.rows
    requires ti.cols == nn.InputWidth() && to.cols == nn.OutputWidth() && ti.rows > 0
    ensures c >= 0.0
  {
    var sum := Total(SplitErrors(nn, ti, to, act));
    TotalNonNegative(SplitErrors(nn, ti, to, act));
    QuotientNonNegative(sum, ti.rows);
    sum / (ti.rows as real)
  }

  /** The input columns of a training table. */
  function InputColumns(nn: Network, t: Mat): (ti: Mat)
    requires nn.Valid() && TableFits(nn, t)
    ensures ti.Valid() && ti.rows == t.rows && ti.cols == nn.InputWidth()
  {
    Mat(t.rows, nn.InputWidth(), seq(t.rows, r requires 0 <= r < t.rows => InputPart(nn, t.cells[r])))
  }

  /** The target columns of a training table. */
  function TargetColumns(nn: Network, t: Mat): (to: Mat)
    requires nn.Valid() && TableFits(nn, t)
    ensures to.Valid() && to.rows == t.rows && to.cols == nn.OutputWidth()
  {
    Mat(t.rows, nn.OutputWidth(), seq(t.rows, r requires 0 <= r < t.rows => TargetPart(nn, t.cells[r])))
  }

  /** The combined-table cost equals the two-table cost on the table's input and target columns. */
  lemma CostAgreesWithSplit(nn: Network, t: Mat, act: real -> real)
    requires nn.Valid() && TableFits(nn, t) && t.rows > 0
    ensures Cost(nn, t, act) == CostSplit(nn, InputColumns(nn, t), TargetColumns(nn, t), act)
  {
    var ti, to := InputColumns(nn, t), TargetColumns(nn, t);
    assert RowErrors(nn, t, act) == SplitErrors(nn, ti, to, act);
  }

  /** m − rate·g, cell by cell. */
  function StepMat(m: Mat, g: Mat, rate: real): Mat
    requires m.Valid() && g.Valid() && SameShape(m, g)
  {
    Mat(m.rows, m.cols, seq(m.rows, k requires 0 <= k < m.rows =>
      seq(m.cols, j requires 0 <= j < m.cols => m.cells[k][j] - rate * g.cells[k][j])))
  }

  /** b − rate·g, cell by cell. */
  function StepRow(b: Row, g: Row, rate: real): Row
    requires |b| == |g|
  {
    seq(|b|, j requires 0 <= j < |b| => b[j] - rate * g[j])
  }

  /**
   * `nn_learn(nn, g, rate)`: every weight and bias moves against its gradient
   * entry, param' = param − rate·grad; the activation buffers are untouched.
   */
  function Learn(nn: Network, g: Network, rate: real): (l: Network)
    requires nn.Valid() && g.Valid() && g.arch == nn.arch
    ensures l.Valid() && l.arch == nn.arch && l.activations == nn.activations
    ensures forall i, k, j :: 0 <= i < |l.weights| && 0 <= k < l.weights[i].rows && 0 <= j < l.weights[i].cols ==>
      l.weights[i].cells[k][j] == nn.weights[i].cells[k][j] - rate * g.weights[i].cells[k][j]
    ensures forall i, j :: 0 <= i < |l.biases| && 0 <= j < |l.biases[i]| ==>
      l.biases[i][j] == nn.biases[i][j] - rate * g.biases[i][j]
  {
    nn.(
      weights := seq(|nn.weights|, i requires 0 <= i < |nn.weights| => StepMat(nn.weights[i], g.weights[i], rate)),
      biases := seq(|nn.biases|, i requires 0 <= i < |nn.biases| => StepRow(nn.biases[i], g.biases[i], rate)))
  }

  /** A zero learning rate changes nothing, and neither does a zero gradient. */
  lemma LearnIdentity(nn: Network, g: Network, rate: real)
    requires nn.Valid() && g.Valid() && g.arch == nn.arch
    ensures Learn(nn, g, 0.0) == nn
    ensures Learn(nn, NnZero(g), rate) == nn
  {
    NetworkExt(Learn(nn, g, 0.0), nn);
    NetworkExt(Learn(nn, NnZero(g), rate), nn);
  }

  /** Two steps along the same gradient are one step with the summed rate. */
  lemma LearnCompose(nn: Network, g: Network, r1: real, r2: real)
    requires nn.Valid() && g.Valid() && g.arch == nn.arch
    ensures Learn(Learn(nn, g, r1), g, r2) == Learn(nn, g, r1 + r2)
  {
    NetworkExt(Learn(Learn(nn, g, r1), g, r2), Learn(nn, g, r1 + r2));
  }
}

=== FILE: wrappers.dfy ===
/** The optional value used wherever the engine accepts a nullable pointer. */
module Wrappers {

  /** `None` stands for a null pointer, `Some(v)` for a pointer to `v`. */
  datatype Option<+T> = None | Some(value: T)
}
